=== FILE: README.md ===
# Crossword CSP solver and tic-tac-toe search, in Dafny

This project models two small AI programs and proves properties of the models.

- **The crossword generator.** This is the `CrosswordCreator` class of `crossword/generate.py`. It treats every word slot of a crossword as a variable whose domain is a set of words. It first removes words of the wrong length (node consistency). Then it prunes words without a partner at some crossing (`revise` and the AC-3 worklist `ac3`). Finally it runs a backtracking search. The search picks the unassigned slot with the fewest remaining words, then the highest degree. It tries that slot's words in least-constraining order. After each choice it runs AC-3 on the arcs from the chosen slot to its neighbours, and when a choice leads nowhere it puts the saved domains back.
- **Tic-tac-toe.** This is `tictactoe/tictactoe.py`. It covers the game rules: the starting board, whose turn it is, the legal moves, the effect of a move, the winner, the end of the game and its utility. It also covers the move chooser `minimax`, which drives the alpha-beta searchers `MaxVal` and `MinVal`.

Files:

| file | module | contents |
|---|---|---|
| `wrappers.dfy` | `Wrappers` | `Option` |
| `words.dfy` | `Words` | words, and Python's order on strings |
| `crossword.dfy` | `Crosswords` | slots, crossings, `neighbors` |
| `domains.dfy` | `Domains` | the domain store, `__init__`, `enforce_node_consistency` |
| `arcs.dfy` | `Arcs` | `revise`, `ac3` |
| `assignment.dfy` | `Assignments` | `assignment_complete`, `consistent` |
| `heuristics.dfy` | `Heuristics` | `select_unassigned_variable`, `order_domain_values` |
| `search.dfy` | `Search` | `backtrack`, `solve` |
| `tictactoe.dfy` | `TicTacToe` | the game rules |
| `alphabeta.dfy` | `AlphaBeta` | `MaxVal`, `MinVal`, `minimax`, and an unpruned reference minimax |

## How the model is built

**Domains as shared objects.** The solver changes domain sets in place. `backtrack` "restores" a domain by pointing the variable's entry back at the set object it held before. So the model keeps a store `Store(ref, objs)`:
- `objs` is a list of set objects;
- `ref` maps each variable to the object it currently refers to.

An in-place removal changes an object, and every entry that refers to it sees the change. A restore only moves entries. This makes the following visible in the model:
- When the chosen slot has neighbours, `backtrack` calls `ac3` on the arcs `(x, n)`. AC-3 then only ever narrows `x`'s fresh one-word object, so a failed attempt leaves every older object as it was (`Search.Backtrack`, under `Linked`).
- When the chosen slot has no neighbours, the arc list is empty and `ac3` runs over every crossing. Its in-place removals are then not undone by the restore.

**Iteration order.** The crossword's set of variables and the solver's dict are iterated in one fixed order, the order of `Crossword.vars`. Where the answer does not depend on that order, the contract says so. For example, `Assignments.Consistent` equals an order-free definition.

**Crossings.** `Crossword.overlaps` holds only the pairs whose overlap is not `None`. `neighbors(v)` is modelled as the other variables crossing `v`, in iteration order.

**Crash paths.** `revise` and `order_domain_values` read domain words at crossing indices, and can raise IndexError on a word too short for a crossing. They read a word only inside a loop over the other slot's words, so an empty domain there, or the `break` of `revise` after an earlier match, means a short word may never be read. `consistent` checks a word's length before anything reads it (`crossword/generate.py` lines 191-192). It raises IndexError only at line 201, when it reads the word of a neighbour it has not visited yet and that word is too short for the crossing. A variable outside the crossword raises KeyError. The model requires these cases away (`CanRevise`, `Indexable`, `AsgFits`, `asg.Keys <= VarSet(cw)`), and so also excludes some inputs the source gets through without crashing. `AsgFits` asks every assigned word to reach every crossing index of its slot. So it also excludes some assignments that the source answers False without crashing: a short word that the length check at line 192 rejects before any neighbour reads it. After node consistency none of these cases can arise, and `Search.Solve` and `Search.Backtrack` only make calls that meet these requirements.

**Boards.** A board is a 3x3 `seq<seq<Cell>>`, and `EMPTY` is `None`. `result` copies the board. In the model the board is a value, so the copy is implicit.

**Where AC-3 falls short of its docstring.** The docstring of `ac3` (`crossword/generate.py` lines 145-150) promises that every variable ends up arc consistent, and that true means no domain is empty. The code keeps neither promise in general. Textbook AC-3 gets there by re-enqueueing the arcs `(n, x)` into `x` after `x` loses a word. The code appends `(x, n)` instead (line 169). It also seeds the worklist with each crossing pair in one direction only (lines 152-158). The model follows the code, and so `ac3` does not reach arc consistency in general:
- `Arcs.Ac3OneDirection` exhibits a two-slot crossword on which `ac3()` answers true while the down slot still holds a word with no partner in the across slot.
- The answer false comes only from a revision that empties a domain (lines 164-166). A domain that is already empty on entry loses nothing when revised, so it never triggers that answer. This happens, for example, in the first `ac3()` of `solve` after node consistency has emptied a slot that no word fits. `Arcs.Ac3EmptyTrue` exhibits a two-slot crossword on which `ac3()` answers true with the across slot's domain empty. What the contract of `Arcs.Ac3` does promise for true is that no domain object it changed was emptied.
- What the model does prove is that AC-3 never removes a word of a solution that lies within the domains (`Arcs.Ac3LoopKeepsSolution`). This bears on completeness: when every slot crosses another one, `Search.Solve` finds a solution whenever the crossword has one.
- Soundness does not rest on AC-3. A result of `backtrack` has passed `assignment_complete` and `consistent`, which is what the contract of `Search.Backtrack` states.

## Model

| member | source | states |
|---|---|---|
| Crosswords.Neighbors | crossword/generate.py:155-158 | `neighbors(v)` lists exactly the other variables that cross `v`; for a well-formed crossword each appears once |
| Crosswords.NeighborsSymmetric | crossword/generate.py:155-158 | `u` is a neighbour of `v` exactly when `v` is a neighbour of `u`, exactly when the pair has an overlap |
| Domains.Init | crossword/generate.py:8-16 | every variable starts with the whole vocabulary, in a set object of its own (no two variables share one) |
| Domains.EnforceNodeConsistency | crossword/generate.py:96-108 | a word stays in a variable's domain exactly when it was there and has the slot's length; domains only shrink and the entries are unchanged |
| Arcs.Revise | crossword/generate.py:110-141 | `x` keeps exactly the words with a partner in `y`'s domain at the crossing; no other object changes; the answer is true exactly when a word was removed; a pair without an overlap is left alone |
| Arcs.ReviseArcConsistent | crossword/generate.py:110-141 | after `revise(x, y)` every word left for `x` has a partner in `y`'s domain |
| Arcs.ReviseMaximal | crossword/generate.py:110-141 | every set of `x`'s words that all have partners survives `revise(x, y)`: nothing is removed needlessly |
| Arcs.ReviseIdempotent | crossword/generate.py:110-141 | a second `revise(x, y)` right after the first removes nothing and answers false |
| Arcs.Enqueue | crossword/generate.py:166-169 | the queue keeps its old arcs in order and gains exactly the arcs `(x, n)` for neighbours `n` other than `y` whose arc is not already pending in either direction |
| Arcs.EnqueueNoDup | crossword/generate.py:166-169 | the queue never holds an arc twice, nor an arc together with its reverse |
| Arcs.Seed | crossword/generate.py:152-158 | the initial worklist holds each crossing pair exactly once, oriented from the variable that comes first in iteration order |
| Arcs.PairSeed | crossword/generate.py:152-158 | on a crossword of two crossing slots the initial worklist is the single arc across-to-down |
| Arcs.Step | crossword/generate.py:161-169 | one pass of the loop either empties the revised domain, or lowers the total number of words, or leaves the domains as they were and shortens the queue |
| Arcs.Ac3Loop | crossword/generate.py:161-170 | the worklist loop only removes words; it changes only the objects of variables that some queued arc starts at; false means some variable it revised was left without words; true means no object it changed was emptied |
| Arcs.ReviseKeepsSolution | crossword/generate.py:110-141 | `revise` keeps every word of a complete assignment whose words agree at every crossing |
| Arcs.Ac3LoopKeepsSolution | crossword/generate.py:161-170 | if a complete assignment with agreeing words lies within the domains, AC-3 answers true and keeps all its words |
| Arcs.Ac3 | crossword/generate.py:143-170 | `ac3(arcs)` only shrinks domains; given arcs, it changes only the objects of their sources; false means some variable's domain is empty; true means no object it changed was emptied, though a domain empty on entry can stay empty; when no two variables share an object, a solution within the domains survives and makes the answer true |
| Arcs.Ac3OneDirection | crossword/generate.py:152-169 | on two slots crossing at their first letters, `ac3()` answers true without touching the domains, while the down slot keeps a word with no partner in the across slot |
| Arcs.Ac3EmptyTrue | crossword/generate.py:149-170 | on two slots crossing at their first letters, with the across slot's domain empty on entry, `ac3()` answers true and leaves the store as it was, so true does not mean no domain is empty |
| Assignments.AssignmentComplete | crossword/generate.py:172-180 | true exactly when every variable of the crossword is assigned |
| Assignments.NeighborsAgree | crossword/generate.py:198-202 | true exactly when `value` agrees at the crossing with the word of every assigned neighbour |
| Assignments.AllNeighborsAgree | crossword/generate.py:198-202 | checking the neighbours only is the same as checking every assigned variable, since the others do not cross |
| Assignments.ConsistentFromSpec | crossword/generate.py:189-203 | the scan accepts exactly when every visited word has its slot's length, repeats no word seen before or after, and agrees with every assigned crossing word |
| Assignments.Consistent | crossword/generate.py:182-203 | true exactly when every word has its slot's length, no word is used twice, and crossing words agree, whatever order the variables are visited in |
| Heuristics.BestFrom | crossword/generate.py:238-247 | finds an unassigned variable exactly when one remains, and its `(domain size, -degree, index)` tuple sorts before every other unassigned one's |
| Heuristics.SelectUnassignedVariable | crossword/generate.py:230-247 | returns an unassigned variable of the crossword whose tuple sorts before that of every other unassigned variable |
| Heuristics.ScoreFrom | crossword/generate.py:214-222 | over the neighbours `ns`, the count of ruled-out words is zero exactly when `val` clashes with no word left to an unassigned neighbour in `ns` |
| Heuristics.Score | crossword/generate.py:214-222 | a word scores zero exactly when it agrees at the crossing with every word left to every unassigned neighbour |
| Heuristics.LeastExists | crossword/generate.py:224 | every non-empty set of `(score, word)` pairs has a least element under Python's tuple order |
| Heuristics.SortPairs | crossword/generate.py:224 | `valList.sort()` yields exactly the pairs of the list, in strictly ascending order |
| Heuristics.OrderedWords | crossword/generate.py:223-226 | the words of the sorted list are the domain's words, once each, with their scores ascending |
| Heuristics.OrderDomainValues | crossword/generate.py:206-227 | returns every word of the domain once each, ordered by ascending score, ties broken by the word |
| Search.ArcsFrom | crossword/generate.py:268-271 | the arc list holds exactly the arcs `(x, n)` for the neighbours `n` of `x`, one per neighbour |
| Search.Pin | crossword/generate.py:274 | `x` gets a fresh object holding `value` alone; every other entry and every older object is unchanged |
| Search.RestoreUndoesPin | crossword/generate.py:286-287 | putting the saved entries back gives exactly the entries from before the pin |
| Search.Undo | crossword/generate.py:286-287 | after the restore every variable points at its old object again; the objects keep what AC-3 did to them, and every domain is a subset of what it was |
| Search.PinKeeps | crossword/generate.py:274 | with objects not shared, the pin keeps them unshared and keeps within the domains every solution that gives `x` the word `value` |
| Search.Narrow | crossword/generate.py:266-278 | after the pin and AC-3, `x`'s domain is at most `{value}` and domains only shrink; when `x` has a neighbour no older object changes; with objects not shared, a solution with agreeing words that gives `x` the word `value` and lies within the domains makes the answer true and stays within them |
| Search.RejectedValue | crossword/generate.py:277 | a value that AC-3 or `consistent` rejects is the word of `x` in no solution that extends the assignment and lies within the domains |
| Search.ExhaustedValue | crossword/generate.py:277-280 | a value whose deeper search fails is the word of `x` in no solution that extends the assignment and lies within the domains |
| Search.Attempt | crossword/generate.py:262-287 | a success is a complete, consistent assignment extending the current one by `x := value`, with its new words drawn from the domains; a failure restores every entry; when every slot crosses another one and objects are not shared, a failure means no solution within the domains extending the assignment gives `x` the word `value` |
| Search.Descend | crossword/generate.py:278-287 | after `value` passed AC-3 and `consistent`, a success is a complete, consistent assignment extending the current one by `x := value`; a failure restores every entry and, when every slot crosses another one and objects are not shared, means no solution within the domains extending the assignment gives `x` the word `value` |
| Search.TryValues | crossword/generate.py:261-289 | a success is a complete, consistent assignment extending the input that gives `x` the value at some position `chosen` of `values`; when every slot crosses another one and objects are not shared, no solution within the domains extending the input gives `x` a value before `chosen`, so the result comes from the first value that can lead to one; when every slot crosses another one, a failure leaves every domain as it was and, with objects not shared, means no solution within the domains extending the assignment gives `x` any of the values |
| Search.Backtrack | crossword/generate.py:249-289 | a result is a complete, consistent assignment extending the input, its new words drawn from the current domains; `None` leaves every entry as it was; when every slot crosses another one, `None` leaves every domain as it was too and, with objects not shared, means no solution extending the input lies within the domains |
| Search.InitialWithin | crossword/generate.py:8-16 | every solution drawn from the vocabulary lies within the node-consistent initial domains, whose objects are not shared |
| Search.Solve | crossword/generate.py:88-94 | a result assigns every variable a vocabulary word, consistently; when every slot crosses another one, a result comes back whenever such an assignment exists |
| Search.TrioOuter | crossword/generate.py:266-278 | on three slots where an across and a down slot cross at their first letters and a third crosses nothing, pinning the across slot to `ab` and revising it against the down slot, which holds `ae`, answers true and changes nothing |
| Search.TrioInner | crossword/generate.py:152-170 | with the across slot pinned to `ab`, pinning the lone slot and running AC-3 over every crossing removes `cf` from the down slot's own object and answers true |
| Search.UnlinkedPruningPersists | crossword/generate.py:262-287 | on that crossword, which is not `Linked`, a solution giving the across slot `cd` and the down slot `cf` lies within the domains before the across slot tries `ab`; after both pins are restored, every variable reads its old object but that solution is no longer within the domains; this is one pin-and-restore sequence, not a whole run of the search |
| TicTacToe.InitialState | tictactoe/tictactoe.py:13-19 | the starting board is 3x3 and empty |
| TicTacToe.Player | tictactoe/tictactoe.py:22-37 | `O` moves exactly when `X` has more marks on the board |
| TicTacToe.InitialPlayerIsX | tictactoe/tictactoe.py:13-37 | on the starting board `X` moves first and all nine cells are free |
| TicTacToe.Actions | tictactoe/tictactoe.py:40-50 | the moves are exactly the empty cells, each once, in row-major order |
| TicTacToe.Result | tictactoe/tictactoe.py:54-63 | the moved-on cell gets the mover's mark and every other cell is unchanged |
| TicTacToe.ResultCells | tictactoe/tictactoe.py:54-63 | for every cell content, the cells holding it change only at the moved-on cell |
| TicTacToe.ResultEmpties | tictactoe/tictactoe.py:54-63 | a move on an empty cell leaves one empty cell fewer |
| TicTacToe.ResultAlternates | tictactoe/tictactoe.py:54-63 | on a board where `X` is level or one ahead, a move on an empty cell passes the turn to the other player and keeps that balance |
| TicTacToe.Winner | tictactoe/tictactoe.py:65-82 | no winner exactly when no line is full; otherwise the winner's mark fills a line and no line checked earlier is full |
| TicTacToe.NoEmpties | tictactoe/tictactoe.py:84-93 | the count of empty cells is zero exactly when no cell of the board is empty |
| TicTacToe.Terminal | tictactoe/tictactoe.py:84-93 | the game is over exactly when there is a winner or no cell is empty |
| TicTacToe.TerminalSpec | tictactoe/tictactoe.py:84-93 | the game is over exactly when some line is full or no cell is empty |
| TicTacToe.Utility | tictactoe/tictactoe.py:95-106 | the utility is -1, 0 or 1; it is 0 exactly when no line is full, 1 only when `X` holds a line and -1 only when `O` does |
| AlphaBeta.MaxVal | tictactoe/tictactoe.py:137-146 | the value for `X` lies in -1..1 |
| AlphaBeta.MinVal | tictactoe/tictactoe.py:147-156 | the value for `O` lies in -1..1 |
| AlphaBeta.MaxValSound | tictactoe/tictactoe.py:137-146 | `MaxVal` is fail-soft sound against the unpruned value: exact inside the window, a bound outside it |
| AlphaBeta.MaxLoopSound | tictactoe/tictactoe.py:141-146 | the pruned loop of `MaxVal`, with its early break, is fail-soft sound against the unpruned maximum over the remaining moves |
| AlphaBeta.MinValSound | tictactoe/tictactoe.py:147-156 | `MinVal` is fail-soft sound against the unpruned value |
| AlphaBeta.MinLoopSound | tictactoe/tictactoe.py:151-156 | the pruned loop of `MinVal` is fail-soft sound against the unpruned minimum over the remaining moves |
| AlphaBeta.FullWindowExact | tictactoe/tictactoe.py:113-114 | with the window `minimax` opens, `MaxVal` and `MinVal` return the exact game value |
| AlphaBeta.BestForX | tictactoe/tictactoe.py:116-125 | `X`'s scan returns one of the moves, and some move whenever there is one |
| AlphaBeta.BestForO | tictactoe/tictactoe.py:126-135 | `O`'s scan returns one of the moves, and some move whenever there is one |
| AlphaBeta.BestForXOptimal | tictactoe/tictactoe.py:116-125 | the move `X`'s scan returns has a game value at least that of every move scanned, even though later moves are searched with a narrowed window |
| AlphaBeta.BestForOOptimal | tictactoe/tictactoe.py:126-135 | the move `O`'s scan returns has a game value at most that of every move scanned |
| AlphaBeta.Minimax | tictactoe/tictactoe.py:109-135 | returns a legal move, and `None` exactly when no cell is free |
| AlphaBeta.MinimaxOptimal | tictactoe/tictactoe.py:109-135 | the returned move is optimal: no legal move leads to a position of better game value for the player to move |

## Left out

- `letter_grid`, `print`, `save` and `main` of `crossword/generate.py`: they render or write output, and so do file and image I/O.
- `crossword/crossword.py` is not part of this model. The crossword is given as a value (variables in iteration order, the vocabulary, the overlaps), and `WellFormed` states what the solver relies on: variables listed once, symmetric overlaps, and overlap indices inside both slots.
- Python's set and dict iteration order: a single fixed order, that of `Crossword.vars`.
- Search.Backtrack: completeness (the docstring at `crossword/generate.py` lines 250-256 promises a complete assignment if one is possible) is proved only for crosswords where every slot crosses another one (`Linked`), from domains whose objects are not shared (`DistinctRefs`). When the chosen slot crosses nothing, `ac3([])` runs over every crossing. It prunes, in place, objects still shared with outer levels, against the values pinned so far. The restore at lines 286-287 moves entries back but does not undo that pruning. Words that fit only another value of an outer slot can then be gone when the outer loop tries that value, so the search can miss a solution there, and the model states no completeness for that case. `Search.UnlinkedPruningPersists` exhibits the mechanism on a three-slot crossword. It replays one pin-and-restore sequence, not a whole run: on that crossword the search would instead complete `ab`/`ae` and stop. Losing a solution in a whole run needs a crossword where every choice under the first value then fails, and the model does not replay one.
- Search.Solve: returns a solution whenever one exists only for crosswords where every slot crosses another one, for the reason given under Search.Backtrack.
- Search.Backtrack: the statement that a failed search leaves every domain unchanged is limited to crosswords where every slot crosses another one (`Linked`). Otherwise the source's own in-place pruning is not undone, and the model keeps that behaviour.
- Search.Backtrack: `self.domains[var] = [value]` stores a one-element list. The model stores a one-element set, which behaves the same for every operation applied to it.
- Search.Backtrack: the source tests `if result:`, and an empty dict is false. Every result a recursive call returns holds at least the variable just assigned, so the model tests for a result.
- Search.Solve: as in the source, the answer of the first `ac3()` is ignored.
- Arcs.Ac3: the contract does not claim arc consistency on return, because the code does not reach it (see `Arcs.Ac3OneDirection`). Nor does it claim that true means no domain is empty, as the docstring at lines 149-150 says: a domain empty on entry stays empty under a true answer (see `Arcs.Ac3EmptyTrue`). It claims only that no object it changed was emptied.
- Arcs.Revise: `CanRevise` requires every word of both domains to reach the crossing. It excludes the inputs on which the source raises IndexError, and also some that it handles without error: a short word of `x` when `y`'s domain is empty (it is removed, lines 127-137), or a short word of `y` that the `break` at line 131 skips. None of these arises after node consistency.
- Heuristics.OrderDomainValues: `Indexable` likewise excludes the short words the scoring at lines 216-221 never reads because a neighbour is assigned or has no words left. None arises after node consistency.
- Assignments.Consistent: requires every assigned word to reach every crossing index of its slot, and every key to be a variable of the crossword. This leaves out the inputs on which the source raises IndexError (line 201 reads a not yet visited neighbour's word that is too short) or KeyError. It also leaves out some inputs that the source answers False without crashing: a short word that the length check at lines 191-192 rejects before anything reads it. `backtrack` only passes assignments that meet the requirement.
- TicTacToe.Result: requires the move to be on the board. Negative indices, which Python would wrap, are not modelled. The source does not check that the cell is empty, and neither does the model.
- AlphaBeta.MaxVal: its own contract is only the range -1..1. Its meaning is stated by `AlphaBeta.MaxValSound` against the unpruned reference; the same holds for `MinVal`.
- The `questions/` program is not part of this model.

=== FILE: alphabeta.dfy ===
/** Alpha-beta minimax for tic-tac-toe: the pruned value functions `MaxVal` and
    `MinVal`, the move chooser `Minimax`, and an unpruned game-value reference
    against which the pruned search is proved sound. */
module AlphaBeta {
  import opened Wrappers
  import opened TicTacToe

  function Max(x: int, y: int): int { if x >= y then x else y }

  function Min(x: int, y: int): int { if x <= y then x else y }

  /** Every move in `acts` is a cell of the board that is still empty. */
  predicate Moves(b: Board, acts: seq<Action>)
    requires IsBoard(b)
  {
    forall k :: 0 <= k < |acts| ==> OnBoard(acts[k]) && b[acts[k].0][acts[k].1] == EMPTY
  }

  lemma ActionsAreMoves(b: Board)
    requires IsBoard(b)
    ensures Moves(b, Actions(b))
  {
    var acts := Actions(b);
    forall k | 0 <= k < |acts|
      ensures OnBoard(acts[k]) && b[acts[k].0][acts[k].1] == EMPTY
    {
      assert acts[k] in acts;
    }
  }

  lemma MovesRest(b: Board, acts: seq<Action>)
    requires IsBoard(b) && Moves(b, acts) && acts != []
    ensures OnBoard(acts[0]) && Moves(b, acts[1..])
  {
  }

  /** A game that is not over has a legal move. */
  lemma NonTerminalHasMoves(b: Board)
    requires IsBoard(b) && !Terminal(b)
    ensures |Actions(b)| > 0
  {
    TerminalSpec(b);
    var i, j :| 0 <= i < 3 && 0 <= j < 3 && b[i][j] == EMPTY;
    assert (i, j) in Actions(b);
  }

  /** Value of a board for the maximising player `X`, searched with the window
      (`alpha`, `beta`). */
  function MaxVal(b: Board, alpha: int, beta: int): (v: int)
    requires IsBoard(b)
    ensures -1 <= v <= 1
    decreases Empties(b), 1, 0
  {
    if Terminal(b) then Utility(b)
    else
      NonTerminalHasMoves(b);
      ActionsAreMoves(b);
      MaxLoop(b, Actions(b), -9999999, alpha, beta)
  }

  /** The loop of `MaxVal` over the remaining moves `acts`, with running value `v`;
      it stops as soon as `alpha` reaches `beta`. */
  function MaxLoop(b: Board, acts: seq<Action>, v: int, alpha: int, beta: int): (r: int)
    requires IsBoard(b) && Moves(b, acts) && v <= 1
    ensures r >= v
    ensures acts == [] ==> r == v
    ensures acts != [] ==> -1 <= r <= 1
    decreases Empties(b), 0, |acts|
  {
    if acts == [] then v
    else
      ResultEmpties(b, acts[0]);
      var v' := Max(v, MinVal(Result(b, acts[0]), alpha, beta));
      var alpha' := Max(alpha, v');
      if alpha' >= beta then v' else MaxLoop(b, acts[1..], v', alpha', beta)
  }

  /** Value of a board for the minimising player `O`, searched with the window
      (`alpha`, `beta`). */
  function MinVal(b: Board, alpha: int, beta: int): (v: int)
    requires IsBoard(b)
    ensures -1 <= v <= 1
    decreases Empties(b), 1, 0
  {
    if Terminal(b) then Utility(b)
    else
      NonTerminalHasMoves(b);
      ActionsAreMoves(b);
      MinLoop(b, Actions(b), 9999999, alpha, beta)
  }

  /** The loop of `MinVal`; it stops as soon as `beta` drops to `alpha`. */
  function MinLoop(b: Board, acts: seq<Action>, v: int, alpha: int, beta: int): (r: int)
    requires IsBoard(b) && Moves(b, acts) && v >= -1
    ensures r <= v
    ensures acts == [] ==> r == v
    ensures acts != [] ==> -1 <= r <= 1
    decreases Empties(b), 0, |acts|
  {
    if acts == [] then v
    else
      ResultEmpties(b, acts[0]);
      var v' := Min(v, MaxVal(Result(b, acts[0]), alpha, beta));
      var beta' := Min(beta, v');
      if alpha >= beta' then v' else MinLoop(b, acts[1..], v', alpha, beta')
  }

  /** The minimax value of a board with `X` to maximise: the utility of a finished
      game, otherwise the best value over all moves. */
  function MaxValue(b: Board): (v: int)
    requires IsBoard(b)
    ensures -1 <= v <= 1
    decreases Empties(b), 1, 0
  {
    if Terminal(b) then Utility(b)
    else
      NonTerminalHasMoves(b);
      ActionsAreMoves(b);
      MaxOver(b, Actions(b))
  }

  function MaxOver(b: Board, acts: seq<Action>): (v: int)
    requires IsBoard(b) && Moves(b, acts) && |acts| > 0
    ensures -1 <= v <= 1
    decreases Empties(b), 0, |acts|
  {
    ResultEmpties(b, acts[0]);
    var c := MinValue(Result(b, acts[0]));
    if |acts| == 1 then c else Max(c, MaxOver(b, acts[1..]))
  }

  /** The minimax value of a board with `O` to minimise. */
  function MinValue(b: Board): (v: int)
    requires IsBoard(b)
    ensures -1 <= v <= 1
    decreases Empties(b), 1, 0
  {
    if Terminal(b) then Utility(b)
    else
      NonTerminalHasMoves(b);
      ActionsAreMoves(b);
      MinOver(b, Actions(b))
  }

  function MinOver(b: Board, acts: seq<Action>): (v: int)
    requires IsBoard(b) && Moves(b, acts) && |acts| > 0
    ensures -1 <= v <= 1
    decreases Empties(b), 0, |acts|
  {
    ResultEmpties(b, acts[0]);
    var c := MaxValue(Result(b, acts[0]));
    if |acts| == 1 then c else Min(c, MinOver(b, acts[1..]))
  }

  /** The value `MaxLoop` would reach with no pruning: the larger of `v` and the
      best remaining move. */
  function MaxFold(b: Board, v: int, acts: seq<Action>): int
    requires IsBoard(b) && Moves(b, acts)
  {
    if acts == [] then v else Max(v, MaxOver(b, acts))
  }

  function MinFold(b: Board, v: int, acts: seq<Action>): int
    requires IsBoard(b) && Moves(b, acts)
  {
    if acts == [] then v else Min(v, MinOver(b, acts))
  }

  /** The relation between a pruned result `r`, searched with window
      (`alpha`, `beta`), and the true value `m`: a result inside the window is
      exact, one at or below `alpha` bounds `m` from above, and one at or above
      `beta` bounds it from below. */
  predicate FailSoft(r: int, m: int, alpha: int, beta: int)
  {
    && (r <= alpha ==> m <= r)
    && (r >= beta ==> m >= r)
    && (alpha < r < beta ==> m == r)
  }

  /** One step of the `MaxLoop` soundness proof, on values alone: the child's
      searched value `r1` against its true value `c1`, and `t` the unpruned
      value of the rest of the loop from the old running value `v`. */
  lemma MaxStep(v: int, r1: int, c1: int, t: int, r: int, alpha: int, beta: int)
    requires alpha < beta && t >= v && FailSoft(r1, c1, alpha, beta)
    requires var alpha' := Max(alpha, Max(v, r1));
             if alpha' >= beta then r == Max(v, r1)
             else r >= Max(v, r1) && FailSoft(r, Max(r1, t), alpha', beta)
    ensures FailSoft(r, Max(c1, t), alpha, beta)
  {
  }

  lemma MinStep(v: int, r1: int, c1: int, t: int, r: int, alpha: int, beta: int)
    requires alpha < beta && t <= v && FailSoft(r1, c1, alpha, beta)
    requires var beta' := Min(beta, Min(v, r1));
             if alpha >= beta' then r == Min(v, r1)
             else r <= Min(v, r1) && FailSoft(r, Min(r1, t), alpha, beta')
    ensures FailSoft(r, Min(c1, t), alpha, beta)
  {
  }

  /** The unpruned fold peels its first move like the loop does. */
  lemma MaxFoldFirst(b: Board, v: int, w: int, acts: seq<Action>)
    requires IsBoard(b) && Moves(b, acts) && acts != []
    ensures OnBoard(acts[0]) && Moves(b, acts[1..])
    ensures MaxFold(b, v, acts) == Max(MinValue(Result(b, acts[0])), MaxFold(b, v, acts[1..]))
    ensures MaxFold(b, Max(v, w), acts[1..]) == Max(w, MaxFold(b, v, acts[1..]))
  {
  }

  lemma MinFoldFirst(b: Board, v: int, w: int, acts: seq<Action>)
    requires IsBoard(b) && Moves(b, acts) && acts != []
    ensures OnBoard(acts[0]) && Moves(b, acts[1..])
    ensures MinFold(b, v, acts) == Min(MaxValue(Result(b, acts[0])), MinFold(b, v, acts[1..]))
    ensures MinFold(b, Min(v, w), acts[1..]) == Min(w, MinFold(b, v, acts[1..]))
  {
  }

  /** One step of `MaxLoop`, unfolded. */
  lemma MaxLoopFirst(b: Board, acts: seq<Action>, v: int, alpha: int, beta: int)
    requires IsBoard(b) && Moves(b, acts) && v <= 1 && acts != []
    ensures OnBoard(acts[0]) && Moves(b, acts[1..])
    ensures var v' := Max(v, MinVal(Result(b, acts[0]), alpha, beta));
            var alpha' := Max(alpha, v');
            MaxLoop(b, acts, v, alpha, beta) == if alpha' >= beta then v' else MaxLoop(b, acts[1..], v', alpha', beta)
  {
  }

  /** One step of `MinLoop`, unfolded. */
  lemma MinLoopFirst(b: Board, acts: seq<Action>, v: int, alpha: int, beta: int)
    requires IsBoard(b) && Moves(b, acts) && v >= -1 && acts != []
    ensures OnBoard(acts[0]) && Moves(b, acts[1..])
    ensures var v' := Min(v, MaxVal(Result(b, acts[0]), alpha, beta));
            var beta' := Min(beta, v');
            MinLoop(b, acts, v, alpha, beta) == if alpha >= beta' then v' else MinLoop(b, acts[1..], v', alpha, beta')
  {
  }

  lemma {:induction false} MaxValSound(b: Board, alpha: int, beta: int)
    requires IsBoard(b) && alpha < beta
    ensures FailSoft(MaxVal(b, alpha, beta), MaxValue(b), alpha, beta)
    decreases Empties(b), 1, 0
  {
    if !Terminal(b) {
      NonTerminalHasMoves(b);
      ActionsAreMoves(b);
      MaxLoopSound(b, Actions(b), -9999999, alpha, beta);
    }
  }

  lemma {:induction false} MaxLoopSound(b: Board, acts: seq<Action>, v: int, alpha: int, beta: int)
    requires IsBoard(b) && Moves(b, acts) && v <= 1 && alpha < beta
    ensures FailSoft(MaxLoop(b, acts, v, alpha, beta), MaxFold(b, v, acts), alpha, beta)
    decreases Empties(b), 0, |acts|
  {
    if acts != [] {
      ResultEmpties(b, acts[0]);
      var child := Result(b, acts[0]);
      var r1 := MinVal(child, alpha, beta);
      MinValSound(child, alpha, beta);
      var c1 := MinValue(child);
      var v' := Max(v, r1);
      var alpha' := Max(alpha, v');
      var rest := acts[1..];
      var t := MaxFold(b, v, rest);
      MaxFoldFirst(b, v, r1, acts);
      var r := MaxLoop(b, acts, v, alpha, beta);
      MaxLoopFirst(b, acts, v, alpha, beta);
      if alpha' < beta {
        MaxLoopSound(b, rest, v', alpha', beta);
      }
      MaxStep(v, r1, c1, t, r, alpha, beta);
    }
  }

  lemma {:induction false} MinValSound(b: Board, alpha: int, beta: int)
    requires IsBoard(b) && alpha < beta
    ensures FailSoft(MinVal(b, alpha, beta), MinValue(b), alpha, beta)
    decreases Empties(b), 1, 0
  {
    if !Terminal(b) {
      NonTerminalHasMoves(b);
      ActionsAreMoves(b);
      MinLoopSound(b, Actions(b), 9999999, alpha, beta);
    }
  }

  lemma {:induction false} MinLoopSound(b: Board, acts: seq<Action>, v: int, alpha: int, beta: int)
    requires IsBoard(b) && Moves(b, acts) && v >= -1 && alpha < beta
    ensures FailSoft(MinLoop(b, acts, v, alpha, beta), MinFold(b, v, acts), alpha, beta)
    decreases Empties(b), 0, |acts|
  {
    if acts != [] {
      ResultEmpties(b, acts[0]);
      var child := Result(b, acts[0]);
      var r1 := MaxVal(child, alpha, beta);
      MaxValSound(child, alpha, beta);
      var c1 := MaxValue(child);
      var v' := Min(v, r1);
      var beta' := Min(beta, v');
      var rest := acts[1..];
      var t := MinFold(b, v, rest);
      MinFoldFirst(b, v, r1, acts);
      var r := MinLoop(b, acts, v, alpha, beta);
      MinLoopFirst(b, acts, v, alpha, beta);
      if alpha < beta' {
        MinLoopSound(b, rest, v', alpha, beta');
      }
      MinStep(v, r1, c1, t, r, alpha, beta);
    }
  }

  /** With the window the move chooser opens, the pruned values are exact. */
  lemma FullWindowExact(b: Board)
    requires IsBoard(b)
    ensures MaxVal(b, -999999, 999999) == MaxValue(b)
    ensures MinVal(b, -999999, 999999) == MinValue(b)
  {
    MaxValSound(b, -999999, 999999);
    MinValSound(b, -999999, 999999);
  }

  /** The move `minimax` picks for `X`: scanning `acts`, a move replaces the
      current best when its searched value is strictly greater. */
  function BestForX(b: Board, acts: seq<Action>, alpha: int, bestVal: int, best: Option<Action>): (r: Option<Action>)
    requires IsBoard(b) && Moves(b, acts)
    ensures r == best || (r.Some? && r.value in acts)
    ensures acts != [] && bestVal < -1 ==> r.Some? && r.value in acts
    decreases |acts|
  {
    if acts == [] then best
    else
      var v := MinVal(Result(b, acts[0]), alpha, 999999);
      var alpha' := Max(alpha, v);
      if v > bestVal then BestForX(b, acts[1..], alpha', v, Some(acts[0]))
      else BestForX(b, acts[1..], alpha', bestVal, best)
  }

  /** The move `minimax` picks for `O`: a move replaces the current best when its
      searched value is strictly smaller. */
  function BestForO(b: Board, acts: seq<Action>, beta: int, bestVal: int, best: Option<Action>): (r: Option<Action>)
    requires IsBoard(b) && Moves(b, acts)
    ensures r == best || (r.Some? && r.value in acts)
    ensures acts != [] && bestVal > 1 ==> r.Some? && r.value in acts
    decreases |acts|
  {
    if acts == [] then best
    else
      var v := MaxVal(Result(b, acts[0]), -999999, beta);
      var beta' := Min(v, beta);
      if v < bestVal then BestForO(b, acts[1..], beta', v, Some(acts[0]))
      else BestForO(b, acts[1..], beta', bestVal, best)
  }

  /** The move for the player to move, or `None` when no cell is free. */
  function Minimax(b: Board): (r: Option<Action>)
    requires IsBoard(b)
    ensures r.None? <==> Actions(b) == []
    ensures r.Some? ==> r.value in Actions(b)
  {
    ActionsAreMoves(b);
    if Player(b) == X then BestForX(b, Actions(b), -999999, -99999, None)
    else BestForO(b, Actions(b), 999999, 99999, None)
  }

  /** The game value, for the player to move on `b`, of playing `a`. */
  function ValueForX(b: Board, a: Action): int
    requires IsBoard(b) && OnBoard(a)
  {
    MinValue(Result(b, a))
  }

  function ValueForO(b: Board, a: Action): int
    requires IsBoard(b) && OnBoard(a)
  {
    MaxValue(Result(b, a))
  }

  lemma BoundX(b: Board, acts: seq<Action>, top: int)
    requires IsBoard(b) && Moves(b, acts) && |acts| > 0
    requires ValueForX(b, acts[0]) <= top
    requires forall a :: a in acts[1..] ==> OnBoard(a) && ValueForX(b, a) <= top
    ensures forall a :: a in acts ==> OnBoard(a) && ValueForX(b, a) <= top
  {
    forall a | a in acts && a != acts[0]
      ensures a in acts[1..]
    {
      var k :| 0 <= k < |acts| && acts[k] == a;
      assert acts[1..][k - 1] == a;
    }
  }

  lemma BoundO(b: Board, acts: seq<Action>, top: int)
    requires IsBoard(b) && Moves(b, acts) && |acts| > 0
    requires top <= ValueForO(b, acts[0])
    requires forall a :: a in acts[1..] ==> OnBoard(a) && top <= ValueForO(b, a)
    ensures forall a :: a in acts ==> OnBoard(a) && top <= ValueForO(b, a)
  {
    forall a | a in acts && a != acts[0]
      ensures a in acts[1..]
    {
      var k :| 0 <= k < |acts| && acts[k] == a;
      assert acts[1..][k - 1] == a;
    }
  }

  /** What one searched move tells the chooser for `X`: a value above the best so
      far is exact, and any other value cannot beat the current best. */
  lemma XStep(b: Board, a: Action, alpha: int, bestVal: int, best: Option<Action>)
    requires IsBoard(b) && OnBoard(a)
    requires || (best == None && bestVal == -99999 && alpha == -999999)
             || (best.Some? && OnBoard(best.value) && alpha == bestVal &&
                 ValueForX(b, best.value) == bestVal)
    ensures var v := MinVal(Result(b, a), alpha, 999999);
            && (v > bestVal ==> ValueForX(b, a) == v)
            && (v <= bestVal ==> best.Some? && ValueForX(b, a) <= bestVal)
  {
    MinValSound(Result(b, a), alpha, 999999);
  }

  lemma OStep(b: Board, a: Action, beta: int, bestVal: int, best: Option<Action>)
    requires IsBoard(b) && OnBoard(a)
    requires || (best == None && bestVal == 99999 && beta == 999999)
             || (best.Some? && OnBoard(best.value) && beta == bestVal &&
                 ValueForO(b, best.value) == bestVal)
    ensures var v := MaxVal(Result(b, a), -999999, beta);
            && (v < bestVal ==> ValueForO(b, a) == v)
            && (v >= bestVal ==> best.Some? && bestVal <= ValueForO(b, a))
  {
    MaxValSound(Result(b, a), -999999, beta);
  }

  lemma {:induction false} BestForXOptimal(b: Board, acts: seq<Action>, alpha: int, bestVal: int, best: Option<Action>)
    requires IsBoard(b) && Moves(b, acts)
    requires || (best == None && bestVal == -99999 && alpha == -999999)
             || (best.Some? && OnBoard(best.value) && alpha == bestVal &&
                 ValueForX(b, best.value) == bestVal)
    ensures var r := BestForX(b, acts, alpha, bestVal, best);
            (best.Some? || acts != []) ==>
              && r.Some? && OnBoard(r.value)
              && (forall a :: a in acts ==> OnBoard(a) && ValueForX(b, a) <= ValueForX(b, r.value))
              && (best.Some? ==> bestVal <= ValueForX(b, r.value))
    decreases |acts|
  {
    if acts != [] {
      var child := Result(b, acts[0]);
      var v := MinVal(child, alpha, 999999);
      XStep(b, acts[0], alpha, bestVal, best);
      MovesRest(b, acts);
      var alpha' := Max(alpha, v);
      var rest := acts[1..];
      var r := BestForX(b, acts, alpha, bestVal, best);
      if v > bestVal {
        assert r == BestForX(b, rest, alpha', v, Some(acts[0]));
        BestForXOptimal(b, rest, alpha', v, Some(acts[0]));
      } else {
        assert r == BestForX(b, rest, alpha', bestVal, best);
        BestForXOptimal(b, rest, alpha', bestVal, best);
      }
      BoundX(b, acts, ValueForX(b, r.value));
    }
  }

  lemma {:induction false} BestForOOptimal(b: Board, acts: seq<Action>, beta: int, bestVal: int, best: Option<Action>)
    requires IsBoard(b) && Moves(b, acts)
    requires || (best == None && bestVal == 99999 && beta == 999999)
             || (best.Some? && OnBoard(best.value) && beta == bestVal &&
                 ValueForO(b, best.value) == bestVal)
    ensures var r := BestForO(b, acts, beta, bestVal, best);
            (best.Some? || acts != []) ==>
              && r.Some? && OnBoard(r.value)
              && (forall a :: a in acts ==> OnBoard(a) && ValueForO(b, r.value) <= ValueForO(b, a))
              && (best.Some? ==> ValueForO(b, r.value) <= bestVal)
    decreases |acts|
  {
    if acts != [] {
      var child := Result(b, acts[0]);
      var v := MaxVal(child, -999999, beta);
      OStep(b, acts[0], beta, bestVal, best);
      MovesRest(b, acts);
      var beta' := Min(v, beta);
      var rest := acts[1..];
      var r := BestForO(b, acts, beta, bestVal, best);
      if v < bestVal {
        assert r == BestForO(b, rest, beta', v, Some(acts[0]));
        BestForOOptimal(b, rest, beta', v, Some(acts[0]));
      } else {
        assert r == BestForO(b, rest, beta', bestVal, best);
        BestForOOptimal(b, rest, beta', bestVal, best);
      }
      BoundO(b, acts, ValueForO(b, r.value));
    }
  }

  /** `minimax` returns an optimal move: no legal move leads to a position of
      better game value for the player to move. */
  lemma MinimaxOptimal(b: Board)
    requires IsBoard(b) && Actions(b) != []
    ensures var r := Minimax(b);
            && r.Some? && r.value in Actions(b)
            && (Player(b) == X ==> forall a :: a in Actions(b) ==>
                  MinValue(Result(b, a)) <= MinValue(Result(b, r.value)))
            && (Player(b) == O ==> forall a :: a in Actions(b) ==>
                  MaxValue(Result(b, r.value)) <= MaxValue(Result(b, a)))
  {
    var acts := Actions(b);
    ActionsAreMoves(b);
    if Player(b) == X {
      BestForXOptimal(b, acts, -999999, -99999, None);
    } else {
      BestForOOptimal(b, acts, 999999, 99999, None);
    }
  }
}

=== FILE: arcs.dfy ===
/** Arc consistency: `revise` and the AC-3 queue discipline of the solver. */
module Arcs {
  import opened Words
  import opened Crosswords
  import opened Domains

  /** `w`, a word for the first variable of an arc, has a partner in `e` with the
      same letter where the two slots cross at `ov`. */
  predicate Supported(w: Word, e: set<Word>, ov: Overlap)
    requires ov.0 < |w| && forall u :: u in e ==> ov.1 < |u|
  {
    exists u :: u in e && LettersMatch(w, u, ov)
  }

  /** `revise(x, y)` can read every overlap index it needs. */
  ghost predicate CanRevise(cw: Crossword, st: Store, x: Variable, y: Variable)
  {
    && x in st.ref && y in st.ref && st.ref[x] < |st.objs| && st.ref[y] < |st.objs|
    && ((x, y) in cw.overlaps ==>
          && (forall w :: w in Dom(st, x) ==> cw.overlaps[(x, y)].0 < |w|)
          && (forall w :: w in Dom(st, y) ==> cw.overlaps[(x, y)].1 < |w|))
  }

  /** Every word left for `x` has a partner among the words left for `y`. */
  ghost predicate ArcConsistent(cw: Crossword, st: Store, x: Variable, y: Variable)
    requires CanRevise(cw, st, x, y)
  {
    (x, y) in cw.overlaps ==>
      forall w :: w in Dom(st, x) ==> Supported(w, Dom(st, y), cw.overlaps[(x, y)])
  }

  /** `revise(x, y)`: drop from `x`'s domain object every word without a partner
      in `y`'s domain; report whether anything was dropped. A pair without an
      overlap is left alone. */
  function Revise(cw: Crossword, st: Store, x: Variable, y: Variable): (r: (bool, Store))
    requires CanRevise(cw, st, x, y)
    ensures r.1.ref == st.ref && |r.1.objs| == |st.objs|
    ensures forall i :: 0 <= i < |st.objs| && i != st.ref[x] ==> r.1.objs[i] == st.objs[i]
    ensures forall w :: w in Dom(r.1, x) <==>
              w in Dom(st, x) && ((x, y) !in cw.overlaps || Supported(w, Dom(st, y), cw.overlaps[(x, y)]))
    ensures r.0 <==> Dom(r.1, x) < Dom(st, x)
  {
    if (x, y) !in cw.overlaps then (false, st)
    else
      var ov := cw.overlaps[(x, y)];
      var removeList := set w | w in Dom(st, x) && !Supported(w, Dom(st, y), ov);
      (removeList != {}, st.(objs := st.objs[st.ref[x] := Dom(st, x) - removeList]))
  }

  /** After `revise(x, y)`, `x` is arc consistent with `y` (unless the two share
      one domain object, which the solver never arranges). */
  lemma ReviseArcConsistent(cw: Crossword, st: Store, x: Variable, y: Variable)
    requires CanRevise(cw, st, x, y) && st.ref[x] != st.ref[y]
    ensures CanRevise(cw, Revise(cw, st, x, y).1, x, y)
    ensures ArcConsistent(cw, Revise(cw, st, x, y).1, x, y)
  {
  }

  /** `revise` drops nothing it need not drop: every set of `x`'s words that all
      have partners survives it. */
  lemma ReviseMaximal(cw: Crossword, st: Store, x: Variable, y: Variable, keep: set<Word>)
    requires CanRevise(cw, st, x, y) && (x, y) in cw.overlaps && keep <= Dom(st, x)
    requires forall w :: w in keep ==> Supported(w, Dom(st, y), cw.overlaps[(x, y)])
    ensures keep <= Dom(Revise(cw, st, x, y).1, x)
  {
  }

  /** A second `revise(x, y)` right after the first changes nothing. */
  lemma ReviseIdempotent(cw: Crossword, st: Store, x: Variable, y: Variable)
    requires CanRevise(cw, st, x, y) && st.ref[x] != st.ref[y]
    ensures CanRevise(cw, Revise(cw, st, x, y).1, x, y)
    ensures Revise(cw, Revise(cw, st, x, y).1, x, y) == (false, Revise(cw, st, x, y).1)
  {
    var st1 := Revise(cw, st, x, y).1;
    ReviseArcConsistent(cw, st, x, y);
    var st2 := Revise(cw, st1, x, y).1;
    assert Dom(st2, x) == Dom(st1, x);
    assert st2.objs == st1.objs;
  }

  /** The queue never holds an arc twice, nor an arc together with its reverse. */
  ghost predicate NoDupArcs(q: seq<Arc>)
  {
    forall i, j :: 0 <= i < j < |q| ==> q[i] != q[j] && q[i] != (q[j].1, q[j].0)
  }

  /** The source's enqueue loop: append `(x, n)` for each `n` of `ns` outside
      `except`, unless `(x, n)` or `(n, x)` is already queued. */
  function Enqueue(queue: seq<Arc>, x: Variable, ns: seq<Variable>, except: set<Variable>): (q: seq<Arc>)
    ensures |queue| <= |q| && q[..|queue|] == queue
    ensures forall a :: a in q <==>
              a in queue || (a.0 == x && a.1 in ns && a.1 !in except && (a.1, x) !in queue)
    decreases |ns|
  {
    if ns == [] then queue
    else
      var n := ns[0];
      var q1 := if n !in except && (x, n) !in queue && (n, x) !in queue then queue + [(x, n)] else queue;
      Enqueue(q1, x, ns[1..], except)
  }

  /** Enqueueing keeps the queue free of duplicates and of reversed pairs. */
  lemma {:induction false} EnqueueNoDup(queue: seq<Arc>, x: Variable, ns: seq<Variable>, except: set<Variable>)
    requires NoDupArcs(queue)
    ensures NoDupArcs(Enqueue(queue, x, ns, except))
    decreases |ns|
  {
    if ns != [] {
      var n := ns[0];
      if n !in except && (x, n) !in queue && (n, x) !in queue {
        var q1 := queue + [(x, n)];
        forall i, j | 0 <= i < j < |q1|
          ensures q1[i] != q1[j] && q1[i] != (q1[j].1, q1[j].0)
        {
          if j == |queue| {
            assert q1[i] in queue;
          }
        }
        EnqueueNoDup(q1, x, ns[1..], except);
      } else {
        EnqueueNoDup(queue, x, ns[1..], except);
      }
    }
  }

  /** `u` comes before `v` in the crossword's iteration order. */
  ghost predicate Before(cw: Crossword, u: Variable, v: Variable)
  {
    u in cw.vars && v in cw.vars && IndexOf(cw.vars, u) < IndexOf(cw.vars, v)
  }

  /** The queue built from the variables `vars[..k]`. */
  ghost predicate SeedSoFar(cw: Crossword, k: nat, queue: seq<Arc>)
    requires k <= |cw.vars|
  {
    forall a :: a in queue <==> a in cw.overlaps && Before(cw, a.0, a.1) && IndexOf(cw.vars, a.0) < k
  }

  lemma SeedStep(cw: Crossword, k: nat, queue: seq<Arc>)
    requires WellFormed(cw) && k < |cw.vars| && SeedSoFar(cw, k, queue)
    ensures SeedSoFar(cw, k + 1, Enqueue(queue, cw.vars[k], Neighbors(cw, cw.vars[k]), {}))
  {
    var v := cw.vars[k];
    var q1 := Enqueue(queue, v, Neighbors(cw, v), {});
    assert IndexOf(cw.vars, v) == k;
    forall a
      ensures a in q1 <==> a in cw.overlaps && Before(cw, a.0, a.1) && IndexOf(cw.vars, a.0) < k + 1
    {
      if a.0 == v {
        if a in cw.overlaps {
          assert a.1 in cw.vars && a.1 != v && (a.1, v) in cw.overlaps;
          assert IndexOf(cw.vars, a.1) != k;
        }
      } else if a.0 in cw.vars {
        assert IndexOf(cw.vars, a.0) != k;
      }
    }
  }

  function SeedFrom(cw: Crossword, k: nat, queue: seq<Arc>): (q: seq<Arc>)
    requires WellFormed(cw) && k <= |cw.vars| && SeedSoFar(cw, k, queue) && NoDupArcs(queue)
    ensures SeedSoFar(cw, |cw.vars|, q) && NoDupArcs(q)
    decreases |cw.vars| - k
  {
    if k == |cw.vars| then queue
    else
      SeedStep(cw, k, queue);
      EnqueueNoDup(queue, cw.vars[k], Neighbors(cw, cw.vars[k]), {});
      SeedFrom(cw, k + 1, Enqueue(queue, cw.vars[k], Neighbors(cw, cw.vars[k]), {}))
  }

  /** The initial queue of `ac3()`: each crossing pair once, oriented from the
      variable that comes first in iteration order. */
  function Seed(cw: Crossword): (q: seq<Arc>)
    requires WellFormed(cw)
    ensures NoDupArcs(q)
    ensures forall a :: a in q <==> a in cw.overlaps && Before(cw, a.0, a.1)
  {
    SeedFrom(cw, 0, [])
  }

  /** Every arc joins two variables of the crossword. */
  ghost predicate ArcsIn(cw: Crossword, q: seq<Arc>)
  {
    forall a :: a in q ==> a.0 in cw.vars && a.1 in cw.vars
  }

  /** The variables an arc queue can revise. */
  ghost function Sources(q: seq<Arc>): set<Variable>
  {
    set a | a in q :: a.0
  }

  /** What AC-3 may rely on: a well-formed crossword, a valid store, arcs
      between variables, and words long enough for every overlap index. */
  ghost predicate Ready(cw: Crossword, st: Store, q: seq<Arc>)
  {
    WellFormed(cw) && Valid(cw, st) && Indexable(cw, st) && ArcsIn(cw, q)
  }

  lemma ReadyCanRevise(cw: Crossword, st: Store, x: Variable, y: Variable)
    requires WellFormed(cw) && Valid(cw, st) && Indexable(cw, st) && x in cw.vars && y in cw.vars
    ensures CanRevise(cw, st, x, y)
  {
    if (x, y) in cw.overlaps {
      var ov := cw.overlaps[(x, y)];
      assert cw.overlaps[(y, x)] == (ov.1, ov.0);
      forall w | w in Dom(st, y)
        ensures ov.1 < |w|
      {
        assert Fits(cw, y, w);
      }
    }
  }

  /** One `revise` step keeps the store ready for the next one and never grows
      an object. */
  lemma ReviseShrinks(cw: Crossword, st: Store, x: Variable, y: Variable, st1: Store)
    requires Valid(cw, st) && Indexable(cw, st) && CanRevise(cw, st, x, y)
    requires st1 == Revise(cw, st, x, y).1
    ensures Valid(cw, st1) && Indexable(cw, st1) && Shrinks(st, st1)
  {
    assert Dom(st1, x) <= Dom(st, x);
    forall i | 0 <= i < |st.objs|
      ensures st1.objs[i] <= st.objs[i]
    {
      if i == st.ref[x] {
        assert st1.objs[i] == Dom(st1, x);
      }
    }
    ShrunkStore(cw, st, st1);
  }

  /** A `revise` that reports a change lowers `Total`; one that does not leaves
      the store as it was. */
  lemma ReviseTotal(cw: Crossword, st: Store, x: Variable, y: Variable, changed: bool, st1: Store)
    requires CanRevise(cw, st, x, y) && (changed, st1) == Revise(cw, st, x, y)
    ensures changed ==> Total(st1.objs) < Total(st.objs)
    ensures !changed ==> st1 == st
  {
    if changed {
      assert st1.objs == st.objs[st.ref[x] := Dom(st1, x)];
      TotalShrinks(st.objs, st.ref[x], Dom(st1, x));
    } else {
      assert Dom(st1, x) == Dom(st, x);
      assert st1.objs == st.objs;
    }
  }

  /** Re-enqueued arcs start at the variable just revised. */
  lemma EnqueueSources(cw: Crossword, queue: seq<Arc>, x: Variable, ns: seq<Variable>, y: Variable)
    requires queue != [] && queue[0].0 == x && ArcsIn(cw, queue) && forall n :: n in ns ==> n in cw.vars
    ensures Sources(Enqueue(queue[1..], x, ns, {y})) <= Sources(queue)
    ensures ArcsIn(cw, Enqueue(queue[1..], x, ns, {y}))
  {
    assert queue[0] in queue;
    forall a | a in Enqueue(queue[1..], x, ns, {y})
      ensures a.0 in Sources(queue)
    {
      if a !in queue[1..] {
        assert a.0 == x;
      }
    }
  }

  /** One pass of the `while queue` loop of `ac3`: pop the first arc, revise it,
      and either stop with an emptied domain or re-enqueue the arcs from the
      revised variable to its other neighbours. The first component is true
      when the loop stops with False. */
  function Step(cw: Crossword, st: Store, queue: seq<Arc>): (r: (bool, Store, seq<Arc>))
    requires Ready(cw, st, queue) && queue != []
    ensures CanRevise(cw, st, queue[0].0, queue[0].1)
    ensures r.1 == Revise(cw, st, queue[0].0, queue[0].1).1
    ensures Ready(cw, r.1, r.2) && r.1.ref == st.ref && |r.1.objs| == |st.objs| && Shrinks(st, r.1)
    ensures Sources(r.2) <= Sources(queue) && queue[0].0 in Sources(queue)
    ensures r.0 ==> Dom(r.1, queue[0].0) == {}
    ensures !r.0 ==> Dom(r.1, queue[0].0) == Dom(st, queue[0].0) || Dom(r.1, queue[0].0) != {}
    ensures !r.0 ==> Total(r.1.objs) < Total(st.objs) || (r.1 == st && |r.2| < |queue|)
  {
    var x, y := queue[0].0, queue[0].1;
    assert queue[0] in queue;
    ReadyCanRevise(cw, st, x, y);
    var (changed, st1) := Revise(cw, st, x, y);
    ReviseShrinks(cw, st, x, y, st1);
    ReviseTotal(cw, st, x, y, changed, st1);
    if !changed then
      assert Sources(queue[1..]) <= Sources(queue);
      (false, st1, queue[1..])
    else if Dom(st1, x) == {} then
      (true, st1, queue[1..])
    else
      EnqueueSources(cw, queue, x, Neighbors(cw, x), y);
      (false, st1, Enqueue(queue[1..], x, Neighbors(cw, x), {y}))
  }

  /** The `while queue` loop of `ac3`. It answers false as soon as a revised
      domain becomes empty. It only removes words, only from the objects of
      variables that some queued arc starts at; a false answer leaves such a
      variable without words, and a true answer empties no object it changed. */
  function Ac3Loop(cw: Crossword, st: Store, queue: seq<Arc>): (r: (bool, Store))
    requires Ready(cw, st, queue)
    ensures r.1.ref == st.ref && |r.1.objs| == |st.objs| && Shrinks(st, r.1)
    ensures forall i :: 0 <= i < |st.objs| && (forall v :: v in Sources(queue) ==> st.ref[v] != i) ==>
              r.1.objs[i] == st.objs[i]
    ensures !r.0 ==> exists v :: v in Sources(queue) && Dom(r.1, v) == {}
    ensures r.0 ==> forall i :: 0 <= i < |st.objs| && r.1.objs[i] != st.objs[i] ==> r.1.objs[i] != {}
    decreases Total(st.objs), |queue|
  {
    if queue == [] then (true, st)
    else
      var (emptied, st1, q1) := Step(cw, st, queue);
      if emptied then (false, st1)
      else
        var r := Ac3Loop(cw, st1, q1);
        ShrinksTransitive(st, st1, r.1);
        r
  }

  /** `asg` gives every variable a word, and the words agree at every crossing. */
  ghost predicate Agrees(cw: Crossword, asg: map<Variable, Word>)
  {
    forall u, v :: (u, v) in cw.overlaps ==>
      u in asg && v in asg && LettersMatch(asg[u], asg[v], cw.overlaps[(u, v)])
  }

  /** Every variable's word in `asg` is still in its domain. */
  ghost predicate Within(st: Store, asg: map<Variable, Word>)
  {
    forall v :: v in st.ref ==> v in asg && st.ref[v] < |st.objs| && asg[v] in st.objs[st.ref[v]]
  }

  lemma ReviseKeepsSolution(cw: Crossword, st: Store, x: Variable, y: Variable, asg: map<Variable, Word>)
    requires WellFormed(cw) && CanRevise(cw, st, x, y) && DistinctRefs(st) && Agrees(cw, asg) && Within(st, asg)
    ensures Within(Revise(cw, st, x, y).1, asg)
  {
    var st1 := Revise(cw, st, x, y).1;
    if (x, y) in cw.overlaps {
      var ov := cw.overlaps[(x, y)];
      assert asg[y] in Dom(st, y) && asg[x][ov.0] == asg[y][ov.1];
      assert Supported(asg[x], Dom(st, y), ov);
    }
    forall v | v in st1.ref
      ensures asg[v] in st1.objs[st1.ref[v]]
    {
      if v != x {
        assert st.ref[v] != st.ref[x];
      }
    }
  }

  /** AC-3 never loses a solution: if the words of a complete assignment that
      agrees at every crossing are all in their domains, they stay there, so no
      domain can run empty and the answer is true. */
  lemma StepKeepsSolution(cw: Crossword, st: Store, queue: seq<Arc>, asg: map<Variable, Word>)
    requires Ready(cw, st, queue) && queue != [] && DistinctRefs(st) && Agrees(cw, asg) && Within(st, asg)
    ensures !Step(cw, st, queue).0 && DistinctRefs(Step(cw, st, queue).1) && Within(Step(cw, st, queue).1, asg)
  {
    var x, y := queue[0].0, queue[0].1;
    var st1 := Step(cw, st, queue).1;
    ReviseKeepsSolution(cw, st, x, y, asg);
    assert x in st.ref;
    assert asg[x] in Dom(st1, x);
  }

  lemma {:induction false} Ac3LoopKeepsSolution(cw: Crossword, st: Store, queue: seq<Arc>, asg: map<Variable, Word>)
    requires Ready(cw, st, queue) && DistinctRefs(st) && Agrees(cw, asg) && Within(st, asg)
    ensures Ac3Loop(cw, st, queue).0 && Within(Ac3Loop(cw, st, queue).1, asg)
    decreases Total(st.objs), |queue|
  {
    if queue != [] {
      StepKeepsSolution(cw, st, queue, asg);
      var r := Step(cw, st, queue);
      Ac3LoopKeepsSolution(cw, r.1, r.2, asg);
    }
  }

  lemma Ac3LoopKeepsSolutions(cw: Crossword, st: Store, queue: seq<Arc>)
    requires Ready(cw, st, queue) && DistinctRefs(st)
    ensures forall asg :: Agrees(cw, asg) && Within(st, asg) ==>
              Ac3Loop(cw, st, queue).0 && Within(Ac3Loop(cw, st, queue).1, asg)
  {
    forall asg | Agrees(cw, asg) && Within(st, asg)
      ensures Ac3Loop(cw, st, queue).0 && Within(Ac3Loop(cw, st, queue).1, asg)
    {
      Ac3LoopKeepsSolution(cw, st, queue, asg);
    }
  }

  /** `ac3(arcs)`: an empty (or absent) `arcs` starts from every crossing pair.
      A complete assignment that agrees at every crossing and whose words are
      all in their (unshared) domains keeps them there, so the answer is then
      true. */
  method Ac3(cw: Crossword, st: Store, arcs: seq<Arc>) returns (ok: bool, st': Store)
    requires Ready(cw, st, arcs)
    ensures st'.ref == st.ref && |st'.objs| == |st.objs| && Shrinks(st, st')
    ensures Valid(cw, st') && Indexable(cw, st')
    ensures arcs != [] ==>
              forall i :: 0 <= i < |st.objs| && (forall v :: v in Sources(arcs) ==> st.ref[v] != i) ==>
                st'.objs[i] == st.objs[i]
    ensures !ok ==> exists v :: v in cw.vars && Dom(st', v) == {}
    ensures ok ==> forall i :: 0 <= i < |st.objs| && st'.objs[i] != st.objs[i] ==> st'.objs[i] != {}
    ensures DistinctRefs(st) ==>
              forall asg :: Agrees(cw, asg) && Within(st, asg) ==> ok && Within(st', asg)
  {
    var queue := if arcs == [] then Seed(cw) else arcs;
    var r := Ac3Loop(cw, st, queue);
    ok, st' := r.0, r.1;
    ShrunkStore(cw, st, st');
    if DistinctRefs(st) {
      Ac3LoopKeepsSolutions(cw, st, queue);
    }
  }

  /** Two slots of length 2 crossing at their first letters, with the words
      `a`, `b` and `c`. */
  function PairCrossword(a: Word, b: Word, c: Word): (cw: Crossword)
    ensures WellFormed(cw)
  {
    var x := Variable(0, 0, Across, 2);
    var y := Variable(0, 0, Down, 2);
    Crossword([x, y], {a, b, c}, map[(x, y) := (0, 0), (y, x) := (0, 0)])
  }

  /** The across slot keeps `a`, the down slot keeps `b` and `c`. */
  function PairStore(a: Word, b: Word, c: Word): (st: Store)
  {
    Store(map[Variable(0, 0, Across, 2) := 0, Variable(0, 0, Down, 2) := 1], [{a}, {b, c}])
  }

  /** The pair store suits AC-3 on the pair crossword. */
  lemma PairReady(a: Word, b: Word, c: Word)
    requires |a| == 2 && |b| == 2 && |c| == 2
    ensures var cw := PairCrossword(a, b, c);
            Ready(cw, PairStore(a, b, c), Seed(cw))
  {
    var cw := PairCrossword(a, b, c);
    var st := PairStore(a, b, c);
    assert VarSet(cw) == {cw.vars[0], cw.vars[1]};
    forall v, w | v in st.ref && w in Dom(st, v)
      ensures Fits(cw, v, w)
    {
      assert |w| == 2 && v.length == 2;
      RightLengthFits(cw, v, w);
    }
  }

  /** AC-3 starts on the pair crossword from the single arc across-to-down. */
  lemma PairSeed(a: Word, b: Word, c: Word)
    ensures var cw := PairCrossword(a, b, c);
            Seed(cw) == [(cw.vars[0], cw.vars[1])]
  {
    var cw := PairCrossword(a, b, c);
    var x, y := cw.vars[0], cw.vars[1];
    assert Neighbors(cw, x) == [y] by {
      assert NeighborsFrom(cw, x, 2) == [];
      assert NeighborsFrom(cw, x, 1) == [y];
    }
    assert Neighbors(cw, y) == [x] by {
      assert NeighborsFrom(cw, y, 1) == [];
    }
    assert Enqueue([], x, [y], {}) == [(x, y)];
    assert Enqueue([(x, y)], y, [x], {}) == [(x, y)];
    SeedStep(cw, 0, []);
    EnqueueNoDup([], x, [y], {});
    SeedStep(cw, 1, [(x, y)]);
    EnqueueNoDup([(x, y)], y, [x], {});
    assert SeedFrom(cw, 1, [(x, y)]) == SeedFrom(cw, 2, [(x, y)]) == [(x, y)];
  }

  /** Revising the across slot against the down slot removes nothing. */
  lemma PairRevise(a: Word, b: Word, c: Word)
    requires |a| == 2 && |b| == 2 && |c| == 2 && a[0] == b[0]
    ensures var cw := PairCrossword(a, b, c);
            var st := PairStore(a, b, c);
            && CanRevise(cw, st, cw.vars[0], cw.vars[1])
            && Revise(cw, st, cw.vars[0], cw.vars[1]) == (false, st)
  {
    var cw := PairCrossword(a, b, c);
    var x, y := cw.vars[0], cw.vars[1];
    var st := PairStore(a, b, c);
    assert Dom(st, x) == {a} && Dom(st, y) == {b, c};
    var st1 := Revise(cw, st, x, y).1;
    assert Supported(a, Dom(st, y), (0, 0)) by {
      assert b in Dom(st, y) && a[0] == b[0];
    }
    assert Dom(st1, x) == Dom(st, x);
    assert st1.objs == st.objs by {
      assert st1.objs[0] == st.objs[0];
      assert st1.objs[1] == st.objs[1];
    }
  }

  /** The initial queue holds each crossing pair once, in one direction only, so
      `ac3()` can answer true while a domain still holds an unsupported word.
      Here the across slot keeps `a`, and the down slot keeps `b`, which starts
      like `a`, and `c`, which does not: `c` has no partner, yet AC-3 never
      revises the down slot. */
  lemma Ac3OneDirection(a: Word, b: Word, c: Word)
    requires |a| == 2 && |b| == 2 && |c| == 2 && a[0] == b[0] && c[0] != a[0]
    ensures var cw := PairCrossword(a, b, c);
            var st := PairStore(a, b, c);
            && Ready(cw, st, Seed(cw))
            && Ac3Loop(cw, st, Seed(cw)) == (true, st)
            && CanRevise(cw, st, cw.vars[1], cw.vars[0]) && !ArcConsistent(cw, st, cw.vars[1], cw.vars[0])
  {
    var cw := PairCrossword(a, b, c);
    var x, y := cw.vars[0], cw.vars[1];
    var st := PairStore(a, b, c);
    PairReady(a, b, c);
    PairSeed(a, b, c);
    PairRevise(a, b, c);
    assert Step(cw, st, [(x, y)]) == (false, st, []);
    assert Dom(st, x) == {a} && Dom(st, y) == {b, c};
    assert !Supported(c, Dom(st, x), (0, 0));
  }

  /** `ac3()` can answer true while a domain is empty: a domain that is empty
      on entry loses nothing when it is revised, so no revision reports an
      emptied domain. Here the across slot has no word left and the down
      slot keeps `b` and `c`; the only arc revises the across slot, removes
      nothing, and AC-3 answers true with the store unchanged. */
  lemma Ac3EmptyTrue(a: Word, b: Word, c: Word)
    requires |b| == 2 && |c| == 2
    ensures var cw := PairCrossword(a, b, c);
            var st := Store(map[cw.vars[0] := 0, cw.vars[1] := 1], [{}, {b, c}]);
            && Ready(cw, st, Seed(cw))
            && Dom(st, cw.vars[0]) == {}
            && Ac3Loop(cw, st, Seed(cw)) == (true, st)
  {
    var cw := PairCrossword(a, b, c);
    var x, y := cw.vars[0], cw.vars[1];
    var st := Store(map[x := 0, y := 1], [{}, {b, c}]);
    assert VarSet(cw) == {x, y};
    forall v, w | v in st.ref && w in Dom(st, v)
      ensures Fits(cw, v, w)
    {
      assert |w| == 2 && v.length == 2;
      RightLengthFits(cw, v, w);
    }
    PairSeed(a, b, c);
    var r := Revise(cw, st, x, y);
    assert r.1.objs == st.objs by {
      assert Dom(r.1, x) == {};
      assert r.1.objs[0] == st.objs[0];
      assert r.1.objs[1] == st.objs[1];
    }
    assert Step(cw, st, [(x, y)]) == (false, st, []);
  }
}

=== FILE: assignment.dfy ===
/** Assignments: `assignment_complete` and `consistent`. */
module Assignments {
  import opened Words
  import opened Crosswords

  /** A partial assignment of words to variables. */
  type Assignment = map<Variable, Word>

  /** `assignment_complete`, scanning the variables from `vars[k]` on. */
  function CompleteFrom(cw: Crossword, asg: Assignment, k: nat): (r: bool)
    requires k <= |cw.vars|
    ensures r <==> forall p :: k <= p < |cw.vars| ==> cw.vars[p] in asg
    decreases |cw.vars| - k
  {
    if k == |cw.vars| then true
    else if cw.vars[k] !in asg then false
    else CompleteFrom(cw, asg, k + 1)
  }

  /** `assignment_complete`: every variable of the crossword has a word. */
  function AssignmentComplete(cw: Crossword, asg: Assignment): (r: bool)
    ensures r <==> VarSet(cw) <= asg.Keys
  {
    var r := CompleteFrom(cw, asg, 0);
    assert r <==> forall v :: v in cw.vars ==> v in asg by {
      if r {
        forall v | v in cw.vars
          ensures v in asg
        {
          var p :| 0 <= p < |cw.vars| && cw.vars[p] == v;
        }
      }
    }
    r
  }

  /** Every assigned word can be read at each crossing of its variable. The
      source raises IndexError when this fails, so the model requires it. */
  ghost predicate AsgFits(cw: Crossword, asg: Assignment)
  {
    forall v :: v in asg ==> Fits(cw, v, asg[v])
  }

  /** The words of `u` and `v` have the same letter where the slots cross (or
      the slots do not cross). */
  ghost predicate CrossingAgrees(cw: Crossword, u: Variable, a: Word, v: Variable, b: Word)
  {
    (u, v) in cw.overlaps ==> LettersMatch(a, b, cw.overlaps[(u, v)])
  }

  /** What `consistent` promises: every word has its slot's length, no word is
      used twice, and crossing words agree. */
  ghost predicate ConsistentSpec(cw: Crossword, asg: Assignment)
  {
    && (forall v :: v in asg ==> |asg[v]| == v.length)
    && (forall u, v :: u in asg && v in asg && u != v ==> asg[u] != asg[v])
    && (forall u, v :: u in asg && v in asg ==> CrossingAgrees(cw, u, asg[u], v, asg[v]))
  }

  /** The inner loop of `consistent`: `value`, the word of `v`, agrees with the
      word of every assigned neighbour in `ns`. */
  function NeighborsAgree(cw: Crossword, asg: Assignment, v: Variable, value: Word, ns: seq<Variable>): (r: bool)
    requires forall n :: n in ns ==> (v, n) in cw.overlaps
    requires forall n :: n in ns && n in asg ==>
               cw.overlaps[(v, n)].0 < |value| && cw.overlaps[(v, n)].1 < |asg[n]|
    ensures r <==> forall n :: n in ns && n in asg ==> CrossingAgrees(cw, v, value, n, asg[n])
  {
    if ns == [] then true
    else
      var n := ns[0];
      if n in asg && value[cw.overlaps[(v, n)].0] != asg[n][cw.overlaps[(v, n)].1] then false
      else NeighborsAgree(cw, asg, v, value, ns[1..])
  }

  /** The inner loop of `consistent` over `neighbors(v)` is a check against every
      assigned variable: the others do not cross `v`. */
  lemma AllNeighborsAgree(cw: Crossword, asg: Assignment, v: Variable, value: Word)
    requires WellFormed(cw) && AsgFits(cw, asg) && v in asg && value == asg[v]
    ensures forall n :: n in Neighbors(cw, v) ==> (v, n) in cw.overlaps
    ensures forall n :: n in Neighbors(cw, v) && n in asg ==>
              cw.overlaps[(v, n)].0 < |value| && cw.overlaps[(v, n)].1 < |asg[n]|
    ensures (forall n :: n in Neighbors(cw, v) && n in asg ==> CrossingAgrees(cw, v, value, n, asg[n])) <==>
            (forall n :: n in asg ==> CrossingAgrees(cw, v, value, n, asg[n]))
  {
    forall n | n in Neighbors(cw, v) && n in asg
      ensures cw.overlaps[(v, n)].1 < |asg[n]|
    {
      assert Fits(cw, n, asg[n]);
      assert cw.overlaps[(n, v)].0 == cw.overlaps[(v, n)].1;
    }
  }

  /** The outer loop of `consistent`, over `vars[k..]`, with `seen` the words of
      the assigned variables already visited. */
  function ConsistentFrom(cw: Crossword, asg: Assignment, k: nat, seen: seq<Word>): bool
    requires WellFormed(cw) && AsgFits(cw, asg) && k <= |cw.vars|
    decreases |cw.vars| - k
  {
    if k == |cw.vars| then true
    else if cw.vars[k] !in asg then ConsistentFrom(cw, asg, k + 1, seen)
    else
      var v := cw.vars[k];
      var value := asg[v];
      AllNeighborsAgree(cw, asg, v, value);
      if v.length != |value| then false
      else if value in seen then false
      else if !NeighborsAgree(cw, asg, v, value, Neighbors(cw, v)) then false
      else ConsistentFrom(cw, asg, k + 1, seen + [value])
  }

  /** What the scan from `vars[k]` checks. */
  ghost predicate SuffixOk(cw: Crossword, asg: Assignment, k: nat, seen: seq<Word>)
  {
    && (forall p :: k <= p < |cw.vars| && cw.vars[p] in asg ==>
          && |asg[cw.vars[p]]| == cw.vars[p].length
          && asg[cw.vars[p]] !in seen
          && forall n :: n in asg ==> CrossingAgrees(cw, cw.vars[p], asg[cw.vars[p]], n, asg[n]))
    && (forall p, q :: k <= p < q < |cw.vars| && cw.vars[p] in asg && cw.vars[q] in asg ==>
          asg[cw.vars[p]] != asg[cw.vars[q]])
  }

  lemma SuffixSkip(cw: Crossword, asg: Assignment, k: nat, seen: seq<Word>)
    requires k < |cw.vars| && cw.vars[k] !in asg
    ensures SuffixOk(cw, asg, k, seen) <==> SuffixOk(cw, asg, k + 1, seen)
  {
  }

  lemma SuffixVisit(cw: Crossword, asg: Assignment, k: nat, seen: seq<Word>)
    requires k < |cw.vars| && cw.vars[k] in asg
    ensures SuffixOk(cw, asg, k, seen) <==>
              && |asg[cw.vars[k]]| == cw.vars[k].length
              && asg[cw.vars[k]] !in seen
              && (forall n :: n in asg ==> CrossingAgrees(cw, cw.vars[k], asg[cw.vars[k]], n, asg[n]))
              && SuffixOk(cw, asg, k + 1, seen + [asg[cw.vars[k]]])
  {
    var value := asg[cw.vars[k]];
    if SuffixOk(cw, asg, k + 1, seen + [value]) && value !in seen {
      assert forall p :: k < p < |cw.vars| && cw.vars[p] in asg ==> asg[cw.vars[p]] != value;
    }
    if SuffixOk(cw, asg, k, seen) {
      assert forall p :: k < p < |cw.vars| && cw.vars[p] in asg ==> asg[cw.vars[p]] !in seen + [value];
    }
  }

  lemma {:induction false} ConsistentFromSpec(cw: Crossword, asg: Assignment, k: nat, seen: seq<Word>)
    requires WellFormed(cw) && AsgFits(cw, asg) && k <= |cw.vars|
    ensures ConsistentFrom(cw, asg, k, seen) <==> SuffixOk(cw, asg, k, seen)
    decreases |cw.vars| - k
  {
    if k < |cw.vars| {
      var v := cw.vars[k];
      if v !in asg {
        ConsistentFromSpec(cw, asg, k + 1, seen);
        SuffixSkip(cw, asg, k, seen);
      } else {
        AllNeighborsAgree(cw, asg, v, asg[v]);
        ConsistentFromSpec(cw, asg, k + 1, seen + [asg[v]]);
        SuffixVisit(cw, asg, k, seen);
      }
    }
  }

  /** `consistent`: the scan answers exactly `ConsistentSpec`, whatever order the
      assigned variables are visited in. Keys outside the crossword make the
      source raise KeyError, so the model requires them away. */
  function Consistent(cw: Crossword, asg: Assignment): (r: bool)
    requires WellFormed(cw) && AsgFits(cw, asg) && asg.Keys <= VarSet(cw)
    ensures r <==> ConsistentSpec(cw, asg)
  {
    ConsistentFromSpec(cw, asg, 0, []);
    var r := ConsistentFrom(cw, asg, 0, []);
    assert SuffixOk(cw, asg, 0, []) <==> ConsistentSpec(cw, asg) by {
      if ConsistentSpec(cw, asg) {
        forall p, q | 0 <= p < q < |cw.vars| && cw.vars[p] in asg && cw.vars[q] in asg
          ensures asg[cw.vars[p]] != asg[cw.vars[q]]
        {
        }
      }
      if SuffixOk(cw, asg, 0, []) {
        forall u, v | u in asg && v in asg && u != v
          ensures asg[u] != asg[v]
        {
          var p := IndexOf(cw.vars, u);
          var q := IndexOf(cw.vars, v);
        }
        forall v | v in asg
          ensures |asg[v]| == v.length
        {
          var p := IndexOf(cw.vars, v);
        }
        forall u, v | u in asg && v in asg
          ensures CrossingAgrees(cw, u, asg[u], v, asg[v])
        {
          var p := IndexOf(cw.vars, u);
        }
      }
    }
    r
  }
}

=== FILE: crossword.dfy ===
/** The crossword the solver consumes: its variables (word slots), the
    vocabulary, and the overlaps between slots. Building it from a structure file
    and a word file is outside this model; what the solver relies on is stated
    as `WellFormed`. */
module Crosswords {
  import opened Words

  datatype Direction = Across | Down

  /** A word slot: the cell it starts at, its direction and its length. Equality
      is structural, as for the source's hashable variables. */
  datatype Variable = Variable(i: int, j: int, direction: Direction, length: nat)

  /** The cell where two slots cross, as an index into each slot's word. */
  type Overlap = (nat, nat)

  type Arc = (Variable, Variable)

  /** Words `a` and `b` of two crossing slots reach the crossing `ov` and have
      the same letter there. Every letter test of the solver is this one. */
  predicate LettersMatch(a: Word, b: Word, ov: Overlap)
  {
    ov.0 < |a| && ov.1 < |b| && a[ov.0] == b[ov.1]
  }

  /** `vars` lists the variables in the crossword's iteration order; a pair
      absent from `overlaps` is a pair whose overlap is `None`. */
  datatype Crossword = Crossword(vars: seq<Variable>, words: set<Word>, overlaps: map<Arc, Overlap>)

  ghost function VarSet(cw: Crossword): set<Variable>
  {
    set v | v in cw.vars
  }

  /** What the solver assumes of the crossword: variables listed once, overlaps
      only between distinct variables, symmetric, and inside both words. */
  ghost predicate WellFormed(cw: Crossword)
  {
    && (forall p, q :: 0 <= p < q < |cw.vars| ==> cw.vars[p] != cw.vars[q])
    && (forall u, v :: (u, v) in cw.overlaps ==> u in cw.vars && v in cw.vars && u != v)
    && (forall u, v :: (u, v) in cw.overlaps ==>
          (v, u) in cw.overlaps && cw.overlaps[(v, u)] == (cw.overlaps[(u, v)].1, cw.overlaps[(u, v)].0))
    && (forall u, v :: (u, v) in cw.overlaps ==> cw.overlaps[(u, v)].0 < u.length && cw.overlaps[(u, v)].1 < v.length)
  }

  /** Position of `v` in `vars`. */
  function IndexOf(vars: seq<Variable>, v: Variable): (k: nat)
    requires v in vars
    ensures k < |vars| && vars[k] == v
  {
    if vars[0] == v then 0 else 1 + IndexOf(vars[1..], v)
  }

  /** `w` is long enough to be read at every crossing of `v`. */
  ghost predicate Fits(cw: Crossword, v: Variable, w: Word)
  {
    forall u :: (v, u) in cw.overlaps ==> cw.overlaps[(v, u)].0 < |w|
  }

  lemma RightLengthFits(cw: Crossword, v: Variable, w: Word)
    requires WellFormed(cw) && |w| == v.length
    ensures Fits(cw, v, w)
  {
  }

  /** The variables of `vars[k..]` other than `v` that cross `v`, in order. */
  function NeighborsFrom(cw: Crossword, v: Variable, k: nat): (ns: seq<Variable>)
    requires k <= |cw.vars|
    ensures forall u :: u in ns <==> u in cw.vars[k..] && u != v && (u, v) in cw.overlaps
    ensures WellFormed(cw) ==> forall p, q :: 0 <= p < q < |ns| ==> ns[p] != ns[q]
    decreases |cw.vars| - k
  {
    if k == |cw.vars| then []
    else
      var rest := NeighborsFrom(cw, v, k + 1);
      assert cw.vars[k..] == [cw.vars[k]] + cw.vars[k + 1..];
      if cw.vars[k] != v && (cw.vars[k], v) in cw.overlaps then [cw.vars[k]] + rest else rest
  }

  /** `neighbors(v)`: every other variable whose overlap with `v` is not `None`,
      each once. The order is the crossword's iteration order. */
  function Neighbors(cw: Crossword, v: Variable): (ns: seq<Variable>)
    ensures forall u :: u in ns <==> u in cw.vars && u != v && (u, v) in cw.overlaps
    ensures WellFormed(cw) ==> forall p, q :: 0 <= p < q < |ns| ==> ns[p] != ns[q]
  {
    assert cw.vars[0..] == cw.vars;
    NeighborsFrom(cw, v, 0)
  }

  /** For a well-formed crossword, `u` neighbours `v` exactly when the pair has
      an overlap, in either order. */
  lemma NeighborsSymmetric(cw: Crossword, v: Variable, u: Variable)
    requires WellFormed(cw)
    ensures u in Neighbors(cw, v) <==> (v, u) in cw.overlaps
    ensures u in Neighbors(cw, v) <==> v in Neighbors(cw, u)
  {
  }
}

=== FILE: domains.dfy ===
/** The solver's domains. In the source each variable's entry refers to a set
    object that the solver updates in place, and backtracking restores an entry
    by pointing it back at an older object. The model therefore keeps the
    objects (`objs`) apart from the entries (`ref`), so that an in-place update
    is seen through every entry that refers to the updated object. */
module Domains {
  import opened Words
  import opened Crosswords

  datatype Store = Store(ref: map<Variable, nat>, objs: seq<set<Word>>)

  /** Every variable has an entry, and every entry refers to an existing object. */
  ghost predicate Valid(cw: Crossword, st: Store)
  {
    && st.ref.Keys == VarSet(cw)
    && forall v :: v in st.ref ==> st.ref[v] < |st.objs|
  }

  /** `self.domains[v]`. */
  function Dom(st: Store, v: Variable): set<Word>
    requires v in st.ref && st.ref[v] < |st.objs|
  {
    st.objs[st.ref[v]]
  }

  /** No two variables share a domain object. */
  ghost predicate DistinctRefs(st: Store)
  {
    forall u, v :: u in st.ref && v in st.ref && u != v ==> st.ref[u] != st.ref[v]
  }

  /** Every word left in a domain has its variable's length. */
  ghost predicate NodeConsistent(cw: Crossword, st: Store)
    requires Valid(cw, st)
  {
    forall v, w :: v in st.ref && w in Dom(st, v) ==> |w| == v.length
  }

  /** Every word left in a domain can be read at each of its variable's
      crossings, so no overlap index is out of range. */
  ghost predicate Indexable(cw: Crossword, st: Store)
    requires Valid(cw, st)
  {
    forall v, w :: v in st.ref && w in Dom(st, v) ==> Fits(cw, v, w)
  }

  lemma NodeConsistentIndexable(cw: Crossword, st: Store)
    requires WellFormed(cw) && Valid(cw, st) && NodeConsistent(cw, st)
    ensures Indexable(cw, st)
  {
    forall v, w | v in st.ref && w in Dom(st, v)
      ensures Fits(cw, v, w)
    {
      RightLengthFits(cw, v, w);
    }
  }

  /** No object grows, and objects are only ever added at the end. */
  ghost predicate Shrinks(st: Store, st': Store)
  {
    && |st.objs| <= |st'.objs|
    && forall i :: 0 <= i < |st.objs| ==> st'.objs[i] <= st.objs[i]
  }

  lemma ShrinksTransitive(st: Store, st1: Store, st2: Store)
    requires Shrinks(st, st1) && Shrinks(st1, st2)
    ensures Shrinks(st, st2)
  {
    forall i | 0 <= i < |st.objs|
      ensures st2.objs[i] <= st.objs[i]
    {
      assert st2.objs[i] <= st1.objs[i];
    }
  }

  /** Shrinking objects in place keeps a store valid, node consistent and
      indexable. */
  lemma ShrunkStore(cw: Crossword, st: Store, st': Store)
    requires Valid(cw, st) && st'.ref == st.ref && |st'.objs| == |st.objs| && Shrinks(st, st')
    ensures Valid(cw, st')
    ensures Indexable(cw, st) ==> Indexable(cw, st')
    ensures NodeConsistent(cw, st) ==> NodeConsistent(cw, st')
  {
    forall v, w | v in st'.ref && w in Dom(st', v)
      ensures w in Dom(st, v)
    {
    }
  }

  /** The number of words held by all objects together: it bounds how often an
      in-place removal can still happen. */
  function Total(objs: seq<set<Word>>): nat
  {
    if objs == [] then 0 else |objs[0]| + Total(objs[1..])
  }

  lemma {:induction false} TotalUpdate(objs: seq<set<Word>>, i: nat, s: set<Word>)
    requires i < |objs|
    ensures Total(objs[i := s]) + |objs[i]| == Total(objs) + |s|
    decreases |objs|
  {
    if i > 0 {
      TotalUpdate(objs[1..], i - 1, s);
      assert objs[i := s][1..] == objs[1..][i - 1 := s];
    }
  }

  lemma ProperSubsetSmaller<T>(s: set<T>, t: set<T>)
    requires s < t
    ensures |s| < |t|
  {
    assert !(t <= s);
    var w :| w in t && w !in s;
    var rest := t - {w} - s;
    assert t - {w} == s + rest && s * rest == {};
    assert |t - {w}| == |t| - 1;
  }

  /** Removing at least one word from one object lowers `Total`. */
  lemma TotalShrinks(objs: seq<set<Word>>, i: nat, s: set<Word>)
    requires i < |objs| && s < objs[i]
    ensures Total(objs[i := s]) < Total(objs)
  {
    TotalUpdate(objs, i, s);
    ProperSubsetSmaller(s, objs[i]);
  }

  /** `__init__`: every variable starts with its own copy of the vocabulary. */
  function Init(cw: Crossword): (st: Store)
    ensures Valid(cw, st) && DistinctRefs(st)
    ensures forall v :: v in cw.vars ==> Dom(st, v) == cw.words
  {
    Store(map v | v in cw.vars :: IndexOf(cw.vars, v), seq(|cw.vars|, _ => cw.words))
  }

  /** The words of `d` that fit a slot of `v`'s length. */
  function Unary(v: Variable, d: set<Word>): set<Word>
  {
    set w | w in d && |w| == v.length
  }

  /** `enforce_node_consistency`, for the variables `vars[k..]`: each one's object
      loses the words of the wrong length. */
  function EnforceFrom(cw: Crossword, st: Store, k: nat): (st': Store)
    requires WellFormed(cw) && Valid(cw, st) && DistinctRefs(st) && k <= |cw.vars|
    ensures st'.ref == st.ref && |st'.objs| == |st.objs|
    ensures forall p :: k <= p < |cw.vars| ==> Dom(st', cw.vars[p]) == Unary(cw.vars[p], Dom(st, cw.vars[p]))
    ensures forall i :: 0 <= i < |st.objs| && (forall p :: k <= p < |cw.vars| ==> st.ref[cw.vars[p]] != i) ==>
              st'.objs[i] == st.objs[i]
    decreases |cw.vars| - k
  {
    if k == |cw.vars| then st
    else
      var v := cw.vars[k];
      var next := st.(objs := st.objs[st.ref[v] := Unary(v, Dom(st, v))]);
      EnforceFrom(cw, next, k + 1)
  }

  /** `enforce_node_consistency`: afterwards each domain holds exactly the words
      of its variable's length that it held before. */
  function EnforceNodeConsistency(cw: Crossword, st: Store): (st': Store)
    requires WellFormed(cw) && Valid(cw, st) && DistinctRefs(st)
    ensures st'.ref == st.ref && |st'.objs| == |st.objs|
    ensures Valid(cw, st') && NodeConsistent(cw, st') && Shrinks(st, st')
    ensures forall v, w :: v in cw.vars ==> (w in Dom(st', v) <==> w in Dom(st, v) && |w| == v.length)
  {
    var st' := EnforceFrom(cw, st, 0);
    forall v | v in cw.vars
      ensures Dom(st', v) == Unary(v, Dom(st, v))
    {
      var p := IndexOf(cw.vars, v);
    }
    st'
  }
}

=== FILE: heuristics.dfy ===
/** The search heuristics: `select_unassigned_variable` (fewest remaining
    values, then highest degree) and `order_domain_values` (least constraining
    value first). */
module Heuristics {
  import opened Wrappers
  import opened Words
  import opened Crosswords
  import opened Domains
  import opened Assignments

  /** `len(neighbors(v))`: the neighbours are listed once each. */
  function Degree(cw: Crossword, v: Variable): nat
  {
    |Neighbors(cw, v)|
  }

  /** Python's order on the tuples `(len(domain), -degree, index)` that
      `select_unassigned_variable` sorts: the variable at `p` sorts before the
      one at `q`. The index among the unassigned variables follows the
      iteration order, so positions in `vars` order the same way. */
  predicate RankBefore(cw: Crossword, st: Store, p: nat, q: nat)
    requires Valid(cw, st) && p < |cw.vars| && q < |cw.vars|
  {
    var dp, dq := |Dom(st, cw.vars[p])|, |Dom(st, cw.vars[q])|;
    var gp, gq := Degree(cw, cw.vars[p]), Degree(cw, cw.vars[q]);
    dp < dq || (dp == dq && (gp > gq || (gp == gq && p < q)))
  }

  lemma RankTransitive(cw: Crossword, st: Store, p: nat, q: nat, s: nat)
    requires Valid(cw, st) && p < |cw.vars| && q < |cw.vars| && s < |cw.vars|
    requires RankBefore(cw, st, p, q) && RankBefore(cw, st, q, s)
    ensures RankBefore(cw, st, p, s)
  {
  }

  /** If the best of `vars[k + 1..]`, at `r`, does not sort before `vars[k]`,
      then `vars[k]` sorts before every variable `r` sorts before. */
  lemma NewBest(cw: Crossword, st: Store, asg: Assignment, k: nat, r: nat)
    requires Valid(cw, st) && k < r < |cw.vars| && !RankBefore(cw, st, r, k)
    requires forall q :: k + 1 <= q < |cw.vars| && cw.vars[q] !in asg && q != r ==> RankBefore(cw, st, r, q)
    ensures forall q :: k + 1 <= q < |cw.vars| && cw.vars[q] !in asg ==> RankBefore(cw, st, k, q)
  {
    assert RankBefore(cw, st, k, r);
    forall q | k + 1 <= q < |cw.vars| && cw.vars[q] !in asg && q != r
      ensures RankBefore(cw, st, k, q)
    {
      RankTransitive(cw, st, k, r, q);
    }
  }

  /** The first entry of the sorted tuple list, among the variables
      `vars[k..]`, as a position in `vars`. */
  function BestFrom(cw: Crossword, st: Store, asg: Assignment, k: nat): (r: Option<nat>)
    requires Valid(cw, st) && k <= |cw.vars|
    ensures r.None? <==> forall p :: k <= p < |cw.vars| ==> cw.vars[p] in asg
    ensures r.Some? ==> k <= r.value < |cw.vars| && cw.vars[r.value] !in asg
    ensures r.Some? ==> forall q :: k <= q < |cw.vars| && cw.vars[q] !in asg && q != r.value ==>
              RankBefore(cw, st, r.value, q)
    decreases |cw.vars| - k
  {
    if k == |cw.vars| then None
    else
      var rest := BestFrom(cw, st, asg, k + 1);
      if cw.vars[k] in asg then rest
      else if rest.Some? && RankBefore(cw, st, rest.value, k) then rest
      else if rest.Some? then
        NewBest(cw, st, asg, k, rest.value);
        Some(k)
      else Some(k)
  }

  /** `select_unassigned_variable`: an unassigned variable whose tuple
      `(len(domain), -degree, index)` is the least of all unassigned ones. The
      source fails with IndexError when every variable is assigned; `backtrack`
      never calls it then. */
  function SelectUnassignedVariable(cw: Crossword, st: Store, asg: Assignment): (v: Variable)
    requires WellFormed(cw) && Valid(cw, st) && !(VarSet(cw) <= asg.Keys)
    ensures v in cw.vars && v !in asg
    ensures forall q :: 0 <= q < |cw.vars| && cw.vars[q] !in asg && cw.vars[q] != v ==>
              RankBefore(cw, st, IndexOf(cw.vars, v), q)
  {
    assert !(forall p :: 0 <= p < |cw.vars| ==> cw.vars[p] in asg) by {
      var u :| u in VarSet(cw) && u !in asg;
      var p := IndexOf(cw.vars, u);
    }
    var r := BestFrom(cw, st, asg, 0);
    assert IndexOf(cw.vars, cw.vars[r.value]) == r.value;
    cw.vars[r.value]
  }

  /** What `order_domain_values` may rely on. */
  ghost predicate Scorable(cw: Crossword, st: Store, x: Variable)
  {
    WellFormed(cw) && Valid(cw, st) && Indexable(cw, st) && x in cw.vars
  }

  /** Every word of a neighbour can be read at its crossing with `x`. */
  lemma NeighborWordsFit(cw: Crossword, st: Store, x: Variable, n: Variable)
    requires Scorable(cw, st, x) && n in Neighbors(cw, x)
    ensures (x, n) in cw.overlaps
    ensures forall u :: u in Dom(st, n) ==> cw.overlaps[(x, n)].1 < |u|
  {
    forall u | u in Dom(st, n)
      ensures cw.overlaps[(x, n)].1 < |u|
    {
      assert Fits(cw, n, u);
    }
  }

  /** `val` and `u` differ where their slots cross at `ov`. */
  predicate Clashes(val: Word, u: Word, ov: Overlap)
  {
    ov.0 < |val| && ov.1 < |u| && !LettersMatch(val, u, ov)
  }

  /** The words of `e` that `val` rules out at the crossing `ov`. */
  function RuledOut(val: Word, e: set<Word>, ov: Overlap): set<Word>
    requires ov.0 < |val| && forall u :: u in e ==> ov.1 < |u|
  {
    set u | u in e && Clashes(val, u, ov)
  }

  /** The score of `val` for `x`, summed over the neighbours `ns`: for each
      unassigned one, the number of its words that `val` rules out. It is zero
      exactly when `val` clashes with no word left to those neighbours. */
  function ScoreFrom(cw: Crossword, st: Store, asg: Assignment, x: Variable, val: Word, ns: seq<Variable>): (r: nat)
    requires Scorable(cw, st, x) && Fits(cw, x, val)
    requires forall n :: n in ns ==> n in Neighbors(cw, x)
    ensures r == 0 <==>
              forall n, u :: n in ns && n !in asg && (x, n) in cw.overlaps && u in Dom(st, n) ==>
                !Clashes(val, u, cw.overlaps[(x, n)])
  {
    if ns == [] then 0
    else
      var n := ns[0];
      NeighborWordsFit(cw, st, x, n);
      var ov := cw.overlaps[(x, n)];
      assert forall u :: u in RuledOut(val, Dom(st, n), ov) <==> u in Dom(st, n) && Clashes(val, u, ov);
      assert forall m :: m in ns <==> m == n || m in ns[1..];
      var here := if n in asg then 0 else |RuledOut(val, Dom(st, n), ov)|;
      here + ScoreFrom(cw, st, asg, x, val, ns[1..])
  }

  /** The number of values `val` rules out among `x`'s unassigned neighbours:
      zero exactly when `val` agrees with every word left to every unassigned
      neighbour, at their crossing. */
  function Score(cw: Crossword, st: Store, asg: Assignment, x: Variable, val: Word): (r: nat)
    requires Scorable(cw, st, x) && Fits(cw, x, val)
    ensures r == 0 <==>
              forall n, u :: n in Neighbors(cw, x) && n !in asg && (x, n) in cw.overlaps && u in Dom(st, n) ==>
                !Clashes(val, u, cw.overlaps[(x, n)])
  {
    ScoreFrom(cw, st, asg, x, val, Neighbors(cw, x))
  }

  /** An entry of `valList`: a word with its score. */
  type Scored = (nat, Word)

  /** Python's order on the `(score, word)` pairs of `valList`. */
  predicate PairLess(a: Scored, b: Scored)
  {
    a.0 < b.0 || (a.0 == b.0 && WordLess(a.1, b.1))
  }

  lemma PairLessAsymmetric(a: Scored, b: Scored)
    ensures !(PairLess(a, b) && PairLess(b, a))
  {
    WordLessAsymmetric(a.1, b.1);
  }

  lemma PairLessTotal(a: Scored, b: Scored)
    ensures a == b || PairLess(a, b) || PairLess(b, a)
  {
    WordLessTotal(a.1, b.1);
  }

  lemma PairLessTransitive(a: Scored, b: Scored, c: Scored)
    requires PairLess(a, b) && PairLess(b, c)
    ensures PairLess(a, c)
  {
    if WordLess(a.1, b.1) && WordLess(b.1, c.1) {
      WordLessTransitive(a.1, b.1, c.1);
    }
  }

  /** A non-empty set of pairs has a least element. */
  lemma {:induction false} LeastExists(s: set<Scored>)
    requires s != {}
    ensures exists m :: m in s && forall p :: p in s && p != m ==> PairLess(m, p)
    decreases |s|
  {
    var a :| a in s;
    if s == {a} {
      assert forall p :: p in s && p != a ==> PairLess(a, p);
    } else {
      LeastExists(s - {a});
      var m :| m in s - {a} && forall p :: p in s - {a} && p != m ==> PairLess(m, p);
      if PairLess(a, m) {
        forall p | p in s && p != a
          ensures PairLess(a, p)
        {
          if p != m {
            PairLessTransitive(a, m, p);
          }
        }
      } else {
        PairLessTotal(a, m);
        assert forall p :: p in s && p != m ==> PairLess(m, p);
      }
    }
  }

  /** Putting the least pair of `s` in front of the sorted rest sorts `s`. */
  lemma SortedCons(s: set<Scored>, m: Scored, rest: seq<Scored>)
    requires m in s && forall p :: p in s && p != m ==> PairLess(m, p)
    requires forall p :: p in rest <==> p in s - {m}
    requires forall i, j :: 0 <= i < j < |rest| ==> PairLess(rest[i], rest[j])
    ensures forall p :: p in [m] + rest <==> p in s
    ensures forall i, j :: 0 <= i < j < |[m] + rest| ==> PairLess(([m] + rest)[i], ([m] + rest)[j])
  {
    var r := [m] + rest;
    forall i, j | 0 <= i < j < |r|
      ensures PairLess(r[i], r[j])
    {
      assert r[j] == rest[j - 1];
      if i == 0 {
        assert rest[j - 1] in s - {m};
      } else {
        assert r[i] == rest[i - 1];
      }
    }
    forall p
      ensures p in r <==> p in s
    {
      assert p in r <==> p == m || p in rest;
    }
  }

  /** The least pair of a non-empty set. */
  function Least(s: set<Scored>): (m: Scored)
    requires s != {}
    ensures m in s && forall p :: p in s && p != m ==> PairLess(m, p)
  {
    LeastExists(s);
    assert forall m, m' :: m in s && m' in s && m != m' ==> !(PairLess(m, m') && PairLess(m', m)) by {
      forall m, m' | m in s && m' in s && m != m'
        ensures !(PairLess(m, m') && PairLess(m', m))
      {
        PairLessAsymmetric(m, m');
      }
    }
    var m :| m in s && forall p :: p in s && p != m ==> PairLess(m, p);
    m
  }

  /** `valList.sort()`: the pairs of `s` in ascending order. */
  function SortPairs(s: set<Scored>): (r: seq<Scored>)
    ensures forall p :: p in r <==> p in s
    ensures forall i, j :: 0 <= i < j < |r| ==> PairLess(r[i], r[j])
    decreases |s|
  {
    if s == {} then []
    else
      var m := Least(s);
      var rest := SortPairs(s - {m});
      SortedCons(s, m, rest);
      [m] + rest
  }

  /** The words of a list of pairs, in order. */
  function WordsOf(ps: seq<Scored>): (ws: seq<Word>)
    ensures |ws| == |ps| && forall i :: 0 <= i < |ps| ==> ws[i] == ps[i].1
  {
    if ps == [] then [] else [ps[0].1] + WordsOf(ps[1..])
  }

  /** `valList` before sorting: each word of `x`'s domain paired with its score. */
  function ScoredDomain(cw: Crossword, st: Store, asg: Assignment, x: Variable): (vl: set<Scored>)
    requires Scorable(cw, st, x)
    ensures forall w :: w in Dom(st, x) ==> Fits(cw, x, w)
    ensures forall p :: p in vl <==> p.1 in Dom(st, x) && p.0 == Score(cw, st, asg, x, p.1)
  {
    assert forall w :: w in Dom(st, x) ==> Fits(cw, x, w);
    set w | w in Dom(st, x) :: (Score(cw, st, asg, x, w), w)
  }

  /** A list without repetitions has as many distinct elements as entries. */
  lemma {:induction false} DistinctCard(r: seq<Word>)
    requires forall i, j :: 0 <= i < j < |r| ==> r[i] != r[j]
    ensures |set w | w in r| == |r|
  {
    if r != [] {
      DistinctCard(r[1..]);
      assert (set w | w in r) == {r[0]} + (set w | w in r[1..]);
      assert r[0] !in (set w | w in r[1..]);
    }
  }

  /** The words of the sorted `valList` are the domain, once each, in order. */
  lemma OrderedWords(cw: Crossword, st: Store, asg: Assignment, x: Variable, sorted: seq<Scored>)
    requires Scorable(cw, st, x)
    requires forall p :: p in sorted <==> p in ScoredDomain(cw, st, asg, x)
    requires forall i, j :: 0 <= i < j < |sorted| ==> PairLess(sorted[i], sorted[j])
    ensures forall i :: 0 <= i < |sorted| ==>
              sorted[i].1 in Dom(st, x) && sorted[i] == (Score(cw, st, asg, x, sorted[i].1), sorted[i].1)
    ensures forall w :: w in WordsOf(sorted) <==> w in Dom(st, x)
    ensures |WordsOf(sorted)| == |Dom(st, x)|
  {
    var vl := ScoredDomain(cw, st, asg, x);
    var r := WordsOf(sorted);
    forall i | 0 <= i < |sorted|
      ensures sorted[i].1 in Dom(st, x) && sorted[i] == (Score(cw, st, asg, x, sorted[i].1), sorted[i].1)
    {
      assert sorted[i] in vl;
    }
    forall w | w in Dom(st, x)
      ensures w in r
    {
      var p := (Score(cw, st, asg, x, w), w);
      assert p in vl;
      var i :| 0 <= i < |sorted| && sorted[i] == p;
      assert r[i] == w;
    }
    forall i, j | 0 <= i < j < |r|
      ensures r[i] != r[j]
    {
      WordLessIrreflexive(r[i]);
    }
    DistinctCard(r);
    assert (set w | w in r) == Dom(st, x);
  }

  /** `order_domain_values`: every word of `x`'s domain, once each, in ascending
      order of (the number of values it rules out among unassigned neighbours,
      the word itself). */
  function OrderDomainValues(cw: Crossword, st: Store, x: Variable, asg: Assignment): (r: seq<Word>)
    requires Scorable(cw, st, x)
    ensures |r| == |Dom(st, x)| && forall w :: w in r <==> w in Dom(st, x)
    ensures forall w :: w in Dom(st, x) ==> Fits(cw, x, w)
    ensures forall i, j :: 0 <= i < j < |r| ==>
              PairLess((Score(cw, st, asg, x, r[i]), r[i]), (Score(cw, st, asg, x, r[j]), r[j]))
  {
    var valList := ScoredDomain(cw, st, asg, x);
    var sorted := SortPairs(valList);
    OrderedWords(cw, st, asg, x, sorted);
    WordsOf(sorted)
  }
}

=== FILE: search.dfy ===
/** The search: `backtrack`, which assigns one variable at a time, narrows the
    domains of its neighbours by AC-3 and undoes that narrowing when the value
    leads nowhere, and `solve`, which runs the whole pipeline. */
module Search {
  import opened Wrappers
  import opened Words
  import opened Crosswords
  import opened Domains
  import opened Arcs
  import opened Assignments
  import opened Heuristics

  /** What the search keeps true of its state: the domains can be read at every
      crossing, and the partial assignment is consistent. */
  ghost predicate Searchable(cw: Crossword, st: Store, asg: Assignment)
  {
    && WellFormed(cw) && Valid(cw, st) && Indexable(cw, st)
    && asg.Keys <= VarSet(cw) && ConsistentSpec(cw, asg)
  }

  /** A store the search may leave behind, starting from `st`. */
  ghost predicate After(cw: Crossword, st: Store, st': Store)
  {
    Valid(cw, st') && Indexable(cw, st') && Shrinks(st, st')
  }

  /** `a` solves the crossword: every variable has a word, the words are
      consistent, `a` extends `asg`, and each new word was in its variable's
      domain in `st`. */
  ghost predicate Solution(cw: Crossword, st: Store, asg: Assignment, a: Assignment)
  {
    && a.Keys == VarSet(cw) && ConsistentSpec(cw, a)
    && (forall v :: v in asg ==> v in a && a[v] == asg[v])
    && (forall v :: v in a && v !in asg ==> v in st.ref && st.ref[v] < |st.objs| && a[v] in Dom(st, v))
  }

  /** Every slot crosses another one, so every call of `ac3` from `backtrack`
      gets a non-empty list of arcs. */
  ghost predicate Linked(cw: Crossword)
  {
    forall v :: v in cw.vars ==> Neighbors(cw, v) != []
  }

  /** `sol` is a solution of the whole crossword that extends `asg` and whose
      words are all still in their domains in `st`. */
  ghost predicate Reachable(cw: Crossword, st: Store, asg: Assignment, sol: Assignment)
  {
    && sol.Keys == VarSet(cw) && ConsistentSpec(cw, sol) && Within(st, sol)
    && forall v :: v in asg ==> v in sol && sol[v] == asg[v]
  }

  /** A store with the same references and the same older objects keeps every
      solution reachable. */
  lemma ReachablePrefix(cw: Crossword, st: Store, st': Store, asg: Assignment, sol: Assignment)
    requires st'.ref == st.ref && |st.objs| <= |st'.objs|
    requires forall i :: 0 <= i < |st.objs| ==> st'.objs[i] == st.objs[i]
    requires Reachable(cw, st, asg, sol)
    ensures Reachable(cw, st', asg, sol)
  {
  }

  /** `SolutionOlder` across the pin of `x`. */
  lemma SolutionPinned(cw: Crossword, st: Store, st': Store, asg: Assignment, x: Variable, value: Word, a: Assignment)
    requires Valid(cw, st) && st'.ref == st.ref[x := |st.objs|] && Shrinks(st, st')
    requires Solution(cw, st', asg[x := value], a)
    ensures Solution(cw, st, asg[x := value], a)
  {
    SolutionOlder(cw, st, st', asg[x := value], a);
  }

  /** A solution that gives `x` the word `value` and survives the narrowing
      extends the assignment with `x` pinned to `value`. */
  lemma PinReachable(cw: Crossword, st: Store, st': Store, asg: Assignment, x: Variable, value: Word, sol: Assignment)
    requires Reachable(cw, st, asg, sol) && x in sol && sol[x] == value && Within(st', sol)
    ensures Reachable(cw, st', asg[x := value], sol)
  {
  }

  /** A value the narrowing or the consistency check rejects is the word of no
      solution still reachable. */
  lemma RejectedValue(cw: Crossword, st: Store, st': Store, asg: Assignment, x: Variable, value: Word, ok: bool)
    requires WellFormed(cw)
    requires forall sol :: Agrees(cw, sol) && Within(st, sol) && x in sol && sol[x] == value ==> ok && Within(st', sol)
    requires !(ok && ConsistentSpec(cw, asg[x := value]))
    ensures forall sol :: Reachable(cw, st, asg, sol) && x in sol ==> sol[x] != value
  {
    forall sol | Reachable(cw, st, asg, sol) && x in sol && sol[x] == value
      ensures false
    {
      ConsistentAgrees(cw, sol);
      ConsistentPart(cw, sol, asg[x := value]);
    }
  }

  /** A value whose deeper search found nothing is the word of no solution
      still reachable. */
  lemma ExhaustedValue(cw: Crossword, st: Store, st': Store, asg: Assignment, x: Variable, value: Word, ok: bool,
                        asg': Assignment)
    requires WellFormed(cw) && asg' == asg[x := value]
    requires forall sol :: Agrees(cw, sol) && Within(st, sol) && x in sol && sol[x] == value ==> ok && Within(st', sol)
    requires forall sol :: !Reachable(cw, st', asg', sol)
    ensures forall sol :: Reachable(cw, st, asg, sol) && x in sol ==> sol[x] != value
  {
    forall sol | Reachable(cw, st, asg, sol) && x in sol && sol[x] == value
      ensures false
    {
      ConsistentAgrees(cw, sol);
      PinReachable(cw, st, st', asg, x, value, sol);
    }
  }

  /** Every reachable solution gives `x` one of the words `values` lists. */
  lemma DomainValues(cw: Crossword, st: Store, asg: Assignment, x: Variable, values: seq<Word>)
    requires Valid(cw, st) && x in cw.vars && forall w :: w in values <==> w in Dom(st, x)
    ensures forall sol :: Reachable(cw, st, asg, sol) ==> x in sol && sol[x] in values
  {
    forall sol | Reachable(cw, st, asg, sol)
      ensures x in sol && sol[x] in values
    {
      assert x in VarSet(cw);
    }
  }

  /** One more value tried in vain is one more word no reachable solution
      gives `x`. */
  lemma SkipValue(cw: Crossword, st: Store, st': Store, asg: Assignment, x: Variable, values: seq<Word>, k: nat)
    requires k < |values| && st'.ref == st.ref && |st.objs| <= |st'.objs|
    requires forall i :: 0 <= i < |st.objs| ==> st'.objs[i] == st.objs[i]
    requires forall sol :: Reachable(cw, st, asg, sol) && x in sol ==> sol[x] !in values[..k]
    requires forall sol :: Reachable(cw, st', asg, sol) && x in sol ==> sol[x] != values[k]
    ensures forall sol :: Reachable(cw, st, asg, sol) && x in sol ==> sol[x] !in values[..k + 1]
  {
    forall sol | Reachable(cw, st, asg, sol) && x in sol
      ensures sol[x] !in values[..k + 1]
    {
      ReachablePrefix(cw, st, st', asg, sol);
      assert values[..k + 1] == values[..k] + [values[k]];
    }
  }

  /** A consistent assignment of every variable agrees at every crossing. */
  lemma ConsistentAgrees(cw: Crossword, sol: Assignment)
    requires WellFormed(cw) && sol.Keys == VarSet(cw) && ConsistentSpec(cw, sol)
    ensures Agrees(cw, sol)
  {
    forall u, v | (u, v) in cw.overlaps
      ensures u in sol && v in sol
    {
      assert u in VarSet(cw) && v in VarSet(cw);
    }
  }

  /** Part of a consistent assignment is consistent. */
  lemma ConsistentPart(cw: Crossword, sol: Assignment, asg: Assignment)
    requires ConsistentSpec(cw, sol) && forall v :: v in asg ==> v in sol && sol[v] == asg[v]
    ensures ConsistentSpec(cw, asg)
  {
  }

  /** The arcs `(x, n)` for the neighbours `ns` of `x`, in order. */
  function ArcsFrom(x: Variable, ns: seq<Variable>): (arcs: seq<Arc>)
    ensures |arcs| == |ns|
    ensures forall a :: a in arcs <==> a.0 == x && a.1 in ns
  {
    if ns == [] then [] else [(x, ns[0])] + ArcsFrom(x, ns[1..])
  }

  /** `originalVals`: the domain objects of `x` and of its neighbours `ns`. */
  function Saved(st: Store, x: Variable, ns: seq<Variable>): (saved: map<Variable, nat>)
    requires x in st.ref && forall n :: n in ns ==> n in st.ref
    ensures saved.Keys == {x} + (set n | n in ns)
    ensures forall v :: v in saved ==> saved[v] == st.ref[v]
  {
    map v | v in {x} + (set n | n in ns) :: st.ref[v]
  }

  /** Point every saved variable back at its saved object. */
  function Restore(st: Store, saved: map<Variable, nat>): (st': Store)
    ensures st'.objs == st.objs
    ensures st'.ref.Keys == st.ref.Keys + saved.Keys
    ensures forall v :: v in st'.ref ==> st'.ref[v] == if v in saved then saved[v] else st.ref[v]
  {
    st.(ref := st.ref + saved)
  }

  /** Going back to the entries of `st` after the objects shrank leaves every
      domain a subset of what it was in `st`. */
  lemma Rollback(cw: Crossword, st: Store, st': Store)
    requires Valid(cw, st) && Indexable(cw, st) && Shrinks(st, st')
    ensures After(cw, st, Store(st.ref, st'.objs))
  {
    var back := Store(st.ref, st'.objs);
    forall v, w | v in back.ref && w in Dom(back, v)
      ensures Fits(cw, v, w)
    {
      assert w in Dom(st, v);
    }
  }

  /** Assigning one more variable leaves fewer to assign. */
  lemma FewerUnassigned(cw: Crossword, asg: Assignment, x: Variable, value: Word)
    requires x in cw.vars && x !in asg
    ensures |VarSet(cw) - asg[x := value].Keys| < |VarSet(cw) - asg.Keys|
  {
    assert x in VarSet(cw) - asg.Keys && x !in VarSet(cw) - asg[x := value].Keys;
    ProperSubsetSmaller(VarSet(cw) - asg[x := value].Keys, VarSet(cw) - asg.Keys);
  }

  /** A solution relative to a later store is a solution relative to an
      earlier one, when the objects have only shrunk since and every variable
      still to be assigned kept its entry. */
  lemma SolutionOlder(cw: Crossword, st: Store, st1: Store, asg: Assignment, a: Assignment)
    requires Valid(cw, st) && Shrinks(st, st1)
    requires forall v :: v in st.ref && v !in asg ==> v in st1.ref && st1.ref[v] == st.ref[v]
    requires Solution(cw, st1, asg, a)
    ensures Solution(cw, st, asg, a)
  {
    forall v | v in a && v !in asg
      ensures a[v] in Dom(st, v)
    {
      assert v in VarSet(cw);
    }
  }

  /** Putting the saved entries back undoes `self.domains[x] = [value]`. */
  lemma RestoreUndoesPin(ref: map<Variable, nat>, x: Variable, k: nat, saved: map<Variable, nat>)
    requires x in saved && saved.Keys <= ref.Keys
    requires forall v :: v in saved ==> saved[v] == ref[v]
    ensures ref[x := k] + saved == ref
  {
    var back := ref[x := k] + saved;
    assert back.Keys == ref.Keys;
    forall v | v in ref
      ensures back[v] == ref[v]
    {
    }
  }

  /** A solution that extends `asg` by a word of `x`'s domain solves `asg`. */
  lemma SolutionExtends(cw: Crossword, st: Store, asg: Assignment, x: Variable, a: Assignment)
    requires Valid(cw, st) && x in cw.vars && x !in asg && x in a && a[x] in Dom(st, x)
    requires Solution(cw, st, asg[x := a[x]], a)
    ensures Solution(cw, st, asg, a)
  {
  }

  /** The store after `self.domains[x] = [value]`: `x` gets a fresh object
      holding `value` alone. */
  function Pin(cw: Crossword, st: Store, x: Variable, value: Word): (st1: Store)
    requires Valid(cw, st) && Indexable(cw, st) && x in cw.vars && Fits(cw, x, value)
    ensures Valid(cw, st1) && Indexable(cw, st1) && Shrinks(st, st1)
    ensures st1.ref == st.ref[x := |st.objs|] && Dom(st1, x) == {value}
    ensures st1.objs[..|st.objs|] == st.objs
  {
    var st1 := Store(st.ref[x := |st.objs|], st.objs + [{value}]);
    assert forall v :: v in st1.ref && v != x ==> Dom(st1, v) == Dom(st, v);
    st1
  }

  /** Words of the right length fit, so a consistent assignment can be checked. */
  lemma ConsistentFits(cw: Crossword, asg: Assignment, x: Variable, value: Word)
    requires WellFormed(cw) && ConsistentSpec(cw, asg) && Fits(cw, x, value)
    ensures AsgFits(cw, asg[x := value])
  {
    forall v | v in asg && v != x
      ensures Fits(cw, v, asg[v])
    {
      RightLengthFits(cw, v, asg[v]);
    }
  }

  /** The restore loop of `backtrack`: `x` and its neighbours point at the
      objects they had before `x` was pinned. */
  function Undo(cw: Crossword, st: Store, x: Variable, st': Store): (back: Store)
    requires Valid(cw, st) && Indexable(cw, st) && x in cw.vars
    requires st'.ref == st.ref[x := |st.objs|] && Shrinks(st, st')
    ensures back.ref == st.ref && back.objs == st'.objs && After(cw, st, back)
  {
    var saved := Saved(st, x, Neighbors(cw, x));
    RestoreUndoesPin(st.ref, x, |st.objs|, saved);
    Rollback(cw, st, st');
    Restore(st', saved)
  }

  /** Pinning `x` to `value` keeps the references distinct and keeps every
      solution that gives `x` the word `value`. */
  lemma PinKeeps(cw: Crossword, st: Store, x: Variable, value: Word, st1: Store)
    requires Valid(cw, st) && Indexable(cw, st) && DistinctRefs(st) && x in cw.vars && Fits(cw, x, value)
    requires st1 == Pin(cw, st, x, value)
    ensures DistinctRefs(st1)
    ensures forall sol :: Within(st, sol) && x in sol && sol[x] == value ==> Within(st1, sol)
  {
    forall sol | Within(st, sol) && x in sol && sol[x] == value
      ensures Within(st1, sol)
    {
      assert forall v :: v in st1.ref && v != x ==> Dom(st1, v) == Dom(st, v);
    }
  }

  /** The inference step of `backtrack`: pin `x` to `value` and run AC-3 on the
      arcs from `x` to its neighbours (on every arc, when it has none). When `x`
      has a neighbour, every queued arc starts at `x`, so only the fresh object
      of `x` is narrowed. */
  method Narrow(cw: Crossword, st: Store, x: Variable, value: Word) returns (ok: bool, st': Store)
    requires WellFormed(cw) && Valid(cw, st) && Indexable(cw, st) && x in cw.vars && Fits(cw, x, value)
    ensures st'.ref == st.ref[x := |st.objs|] && |st'.objs| == |st.objs| + 1
    ensures Valid(cw, st') && Indexable(cw, st') && Shrinks(st, st')
    ensures Dom(st', x) <= {value}
    ensures Neighbors(cw, x) != [] ==> forall i :: 0 <= i < |st.objs| ==> st'.objs[i] == st.objs[i]
    ensures DistinctRefs(st) ==> DistinctRefs(st')
    ensures DistinctRefs(st) ==>
              forall sol :: Agrees(cw, sol) && Within(st, sol) && x in sol && sol[x] == value ==> ok && Within(st', sol)
  {
    var arcs := ArcsFrom(x, Neighbors(cw, x));
    var st1 := Pin(cw, st, x, value);
    if DistinctRefs(st) {
      PinKeeps(cw, st, x, value, st1);
    }
    ok, st' := Ac3(cw, st1, arcs);
    assert Sources(arcs) <= {x};
  }

  /** One pass of the loop in `backtrack`: try `value` for `x`, narrow the
      domains, search on, and on failure restore the saved domain objects. */
  method Attempt(cw: Crossword, st: Store, asg: Assignment, x: Variable, value: Word)
    returns (res: Option<Assignment>, st': Store)
    requires Searchable(cw, st, asg) && x in cw.vars && x !in asg && Fits(cw, x, value)
    ensures After(cw, st, st')
    ensures res.Some? ==> Solution(cw, st, asg[x := value], res.value)
    ensures res.None? ==> st'.ref == st.ref
    ensures res.None? && Linked(cw) ==> forall i :: 0 <= i < |st.objs| ==> st'.objs[i] == st.objs[i]
    ensures res.None? && Linked(cw) && DistinctRefs(st) ==>
              forall sol :: Reachable(cw, st, asg, sol) && x in sol ==> sol[x] != value
    decreases |VarSet(cw) - asg.Keys|, 1
  {
    var asg1 := asg[x := value];
    var ok, st2 := Narrow(cw, st, x, value);
    ConsistentFits(cw, asg, x, value);
    if !(ok && Consistent(cw, asg1)) {
      if DistinctRefs(st) {
        RejectedValue(cw, st, st2, asg, x, value, ok);
      }
      return None, Undo(cw, st, x, st2);
    }
    res, st' := Descend(cw, st, asg, x, value, ok, st2);
  }

  /** The rest of a pass once `value` got through AC-3 and `consistent`:
      search on from the narrowed store `st2`, and on failure restore. */
  method Descend(cw: Crossword, st: Store, asg: Assignment, x: Variable, value: Word, ok: bool, st2: Store)
    returns (res: Option<Assignment>, st': Store)
    requires Searchable(cw, st, asg) && x in cw.vars && x !in asg && ConsistentSpec(cw, asg[x := value])
    requires st2.ref == st.ref[x := |st.objs|] && |st2.objs| == |st.objs| + 1
    requires Valid(cw, st2) && Indexable(cw, st2) && Shrinks(st, st2)
    requires Neighbors(cw, x) != [] ==> forall i :: 0 <= i < |st.objs| ==> st2.objs[i] == st.objs[i]
    requires DistinctRefs(st) ==> DistinctRefs(st2)
    requires DistinctRefs(st) ==>
               forall sol :: Agrees(cw, sol) && Within(st, sol) && x in sol && sol[x] == value ==> ok && Within(st2, sol)
    ensures After(cw, st, st')
    ensures res.Some? ==> Solution(cw, st, asg[x := value], res.value)
    ensures res.None? ==> st'.ref == st.ref
    ensures res.None? && Linked(cw) ==> forall i :: 0 <= i < |st.objs| ==> st'.objs[i] == st.objs[i]
    ensures res.None? && Linked(cw) && DistinctRefs(st) ==>
              forall sol :: Reachable(cw, st, asg, sol) && x in sol ==> sol[x] != value
    decreases |VarSet(cw) - asg.Keys|, 0
  {
    var asg1 := asg[x := value];
    FewerUnassigned(cw, asg, x, value);
    res, st' := Backtrack(cw, st2, asg1);
    ShrinksTransitive(st, st2, st');
    if res.Some? {
      SolutionPinned(cw, st, st2, asg, x, value, res.value);
    } else {
      if Linked(cw) && DistinctRefs(st) {
        ExhaustedValue(cw, st, st2, asg, x, value, ok, asg1);
      }
      st' := Undo(cw, st, x, st');
    }
  }

  /** `backtrack`: a complete assignment returns as it is; otherwise the
      variable `select_unassigned_variable` picks is tried with each value of
      `order_domain_values` in turn. */
  method Backtrack(cw: Crossword, st: Store, asg: Assignment) returns (res: Option<Assignment>, st': Store)
    requires Searchable(cw, st, asg)
    ensures After(cw, st, st')
    ensures res.Some? ==> Solution(cw, st, asg, res.value)
    ensures res.None? ==> st'.ref == st.ref
    ensures res.None? && Linked(cw) ==> forall i :: 0 <= i < |st.objs| ==> st'.objs[i] == st.objs[i]
    ensures res.None? && Linked(cw) && DistinctRefs(st) ==> forall sol :: !Reachable(cw, st, asg, sol)
    decreases |VarSet(cw) - asg.Keys|, 3
  {
    if AssignmentComplete(cw, asg) {
      return Some(asg), st;
    }
    var x := SelectUnassignedVariable(cw, st, asg);
    var values := OrderDomainValues(cw, st, x, asg);
    DomainValues(cw, st, asg, x, values);
    ghost var chosen;
    res, st', chosen := TryValues(cw, st, asg, x, values);
  }

  /** The loop of `backtrack`: the values are tried in order, and the first
      that leads to a complete assignment wins; `chosen` is its position. */
  method TryValues(cw: Crossword, st: Store, asg: Assignment, x: Variable, values: seq<Word>)
    returns (res: Option<Assignment>, st': Store, ghost chosen: nat)
    requires Searchable(cw, st, asg) && x in cw.vars && x !in asg
    requires forall w :: w in values ==> w in Dom(st, x) && Fits(cw, x, w)
    ensures After(cw, st, st')
    ensures res.Some? ==> Solution(cw, st, asg, res.value)
    ensures res.Some? ==> chosen < |values| && x in res.value && res.value[x] == values[chosen]
    ensures res.Some? && Linked(cw) && DistinctRefs(st) ==>
              forall sol :: Reachable(cw, st, asg, sol) && x in sol ==> sol[x] !in values[..chosen]
    ensures res.None? ==> st'.ref == st.ref
    ensures res.None? && Linked(cw) ==> forall i :: 0 <= i < |st.objs| ==> st'.objs[i] == st.objs[i]
    ensures res.None? && Linked(cw) && DistinctRefs(st) ==>
              forall sol :: Reachable(cw, st, asg, sol) && x in sol ==> sol[x] !in values
    decreases |VarSet(cw) - asg.Keys|, 2
  {
    st' := st;
    var k := 0;
    while k < |values|
      invariant k <= |values|
      invariant After(cw, st, st') && st'.ref == st.ref
      invariant Linked(cw) ==> forall i :: 0 <= i < |st.objs| ==> st'.objs[i] == st.objs[i]
      invariant Linked(cw) && DistinctRefs(st) ==>
                  forall sol :: Reachable(cw, st, asg, sol) && x in sol ==> sol[x] !in values[..k]
    {
      var st2;
      res, st2 := Attempt(cw, st', asg, x, values[k]);
      ShrinksTransitive(st, st', st2);
      if res.Some? {
        SolutionOlder(cw, st, st', asg[x := values[k]], res.value);
        SolutionExtends(cw, st, asg, x, res.value);
        return res, st2, k;
      }
      if Linked(cw) && DistinctRefs(st) {
        SkipValue(cw, st, st', asg, x, values, k);
      }
      st' := st2;
      k := k + 1;
    }
    assert values[..k] == values;
    return None, st', k;
  }

  /** Every word a search from the initial domains picks is in the vocabulary. */
  lemma InitialWords(cw: Crossword, st0: Store, st: Store, a: Assignment)
    requires Valid(cw, st0) && forall v :: v in cw.vars ==> Dom(st0, v) == cw.words
    requires st.ref == st0.ref && Shrinks(st0, st) && Solution(cw, st, map[], a)
    ensures forall v :: v in a ==> a[v] in cw.words
  {
    forall v | v in a
      ensures a[v] in cw.words
    {
      assert v in VarSet(cw);
    }
  }

  /** `sol` fills every slot with a word of the vocabulary, consistently. */
  ghost predicate Solves(cw: Crossword, sol: Assignment)
  {
    sol.Keys == VarSet(cw) && ConsistentSpec(cw, sol) && forall v :: v in sol ==> sol[v] in cw.words
  }

  /** A solution lies within the node-consistent initial domains. */
  lemma InitialWithin(cw: Crossword, sol: Assignment)
    requires WellFormed(cw) && Solves(cw, sol)
    ensures DistinctRefs(EnforceNodeConsistency(cw, Init(cw)))
    ensures Within(EnforceNodeConsistency(cw, Init(cw)), sol)
  {
    var st0 := Init(cw);
    var st1 := EnforceNodeConsistency(cw, st0);
    forall v | v in st1.ref
      ensures v in sol && sol[v] in Dom(st1, v)
    {
      assert v in VarSet(cw);
    }
  }

  /** `solve`: node consistency, then AC-3 over every arc (its answer is not
      looked at), then the search from the empty assignment. */
  method Solve(cw: Crossword) returns (res: Option<Assignment>)
    requires WellFormed(cw)
    ensures res.Some? ==> res.value.Keys == VarSet(cw) && ConsistentSpec(cw, res.value)
    ensures res.Some? ==> forall v :: v in res.value ==> res.value[v] in cw.words
    ensures Linked(cw) && (exists sol :: Solves(cw, sol)) ==> res.Some?
  {
    var st0 := Init(cw);
    var st1 := EnforceNodeConsistency(cw, st0);
    NodeConsistentIndexable(cw, st1);
    var _, st2 := Ac3(cw, st1, []);
    ShrinksTransitive(st0, st1, st2);
    var st3;
    res, st3 := Backtrack(cw, st2, map[]);
    if res.Some? {
      InitialWords(cw, st0, st2, res.value);
    } else if Linked(cw) && exists sol :: Solves(cw, sol) {
      var sol :| Solves(cw, sol);
      InitialWithin(cw, sol);
      ConsistentAgrees(cw, sol);
      assert Reachable(cw, st2, map[], sol);
    }
  }

  /** Three slots of length 2: an across and a down slot crossing at their
      first letters, listed down slot first, and a third slot crossing
      nothing. */
  function TrioCrossword(): (cw: Crossword)
    ensures WellFormed(cw)
  {
    var x := Variable(0, 0, Across, 2);
    var y := Variable(0, 0, Down, 2);
    var z := Variable(5, 5, Across, 2);
    Crossword([y, x, z], {"ab", "cd", "ae", "cf", "gh"}, map[(x, y) := (0, 0), (y, x) := (0, 0)])
  }

  /** Unshared domain objects: the down slot keeps `ae` and `cf`, the across
      slot `ab` and `cd`, the lone slot `gh`. */
  function TrioStore(): (st: Store)
  {
    Store(map[Variable(0, 0, Down, 2) := 0, Variable(0, 0, Across, 2) := 1, Variable(5, 5, Across, 2) := 2],
          [{"ae", "cf"}, {"ab", "cd"}, {"gh"}])
  }

  /** The trio store suits AC-3 and shares no object. */
  lemma TrioReady()
    ensures var cw, st := TrioCrossword(), TrioStore();
            Valid(cw, st) && Indexable(cw, st) && DistinctRefs(st)
  {
    var cw, st := TrioCrossword(), TrioStore();
    assert VarSet(cw) == {cw.vars[0], cw.vars[1], cw.vars[2]};
    forall v, w | v in st.ref && w in Dom(st, v)
      ensures Fits(cw, v, w)
    {
      assert |w| == 2 && v.length == 2;
      RightLengthFits(cw, v, w);
    }
  }

  /** `cd` across, `cf` down and `gh` in the lone slot solve the trio
      crossword within the trio store. */
  lemma TrioSolution()
    ensures var cw := TrioCrossword();
            Reachable(cw, TrioStore(), map[], map[cw.vars[1] := "cd", cw.vars[0] := "cf", cw.vars[2] := "gh"])
  {
    var cw := TrioCrossword();
    var x, y, z := cw.vars[1], cw.vars[0], cw.vars[2];
    var sol := map[x := "cd", y := "cf", z := "gh"];
    assert VarSet(cw) == {x, y, z};
    assert forall u, v :: u in sol && v in sol ==> CrossingAgrees(cw, u, sol[u], v, sol[v]) by {
      assert cw.overlaps.Keys == {(x, y), (y, x)};
    }
  }

  /** Only the down slot crosses the across slot, and the lone slot crosses
      nothing. */
  lemma TrioNeighbors()
    ensures var cw := TrioCrossword();
            && Neighbors(cw, cw.vars[0]) == [cw.vars[1]]
            && Neighbors(cw, cw.vars[1]) == [cw.vars[0]]
            && Neighbors(cw, cw.vars[2]) == []
  {
    var cw := TrioCrossword();
    var y, x, z := cw.vars[0], cw.vars[1], cw.vars[2];
    assert Neighbors(cw, y) == [x] by {
      assert NeighborsFrom(cw, y, 3) == [];
      assert NeighborsFrom(cw, y, 2) == [];
      assert NeighborsFrom(cw, y, 1) == [x];
    }
    assert Neighbors(cw, x) == [y] by {
      assert NeighborsFrom(cw, x, 1) == [];
    }
    assert Neighbors(cw, z) == [] by {
      assert NeighborsFrom(cw, z, 0) == [];
    }
  }

  /** AC-3 over every crossing starts from the down slot's arc alone. */
  lemma TrioSeed()
    ensures var cw := TrioCrossword();
            Seed(cw) == [(cw.vars[0], cw.vars[1])]
  {
    var cw := TrioCrossword();
    var y, x, z := cw.vars[0], cw.vars[1], cw.vars[2];
    TrioNeighbors();
    assert Enqueue([], y, [x], {}) == [(y, x)];
    assert Enqueue([(y, x)], x, [y], {}) == [(y, x)];
    assert Enqueue([(y, x)], z, [], {}) == [(y, x)];
    SeedStep(cw, 0, []);
    EnqueueNoDup([], y, [x], {});
    SeedStep(cw, 1, [(y, x)]);
    EnqueueNoDup([(y, x)], x, [y], {});
    SeedStep(cw, 2, [(y, x)]);
    EnqueueNoDup([(y, x)], z, [], {});
    assert SeedFrom(cw, 1, [(y, x)]) == SeedFrom(cw, 2, [(y, x)]) == SeedFrom(cw, 3, [(y, x)]) == [(y, x)];
  }

  /** Pinning the across slot to `ab` and revising it against the down slot,
      as `ac3(arcs)` does for its only neighbour, removes nothing: `ae` is a
      partner of `ab`. */
  lemma TrioOuter()
    ensures var cw, st0 := TrioCrossword(), TrioStore();
            var x, y := cw.vars[1], cw.vars[0];
            && Valid(cw, st0) && Indexable(cw, st0) && Fits(cw, x, "ab")
            && var st1 := Pin(cw, st0, x, "ab");
               && Ready(cw, st1, [(x, y)])
               && Ac3Loop(cw, st1, [(x, y)]) == (true, st1)
  {
    var cw, st0 := TrioCrossword(), TrioStore();
    var x, y := cw.vars[1], cw.vars[0];
    TrioReady();
    var st1 := Pin(cw, st0, x, "ab");
    assert Dom(st1, x) == {"ab"} && Dom(st1, y) == {"ae", "cf"};
    assert Supported("ab", Dom(st1, y), (0, 0)) by {
      assert "ae" in Dom(st1, y) && LettersMatch("ab", "ae", (0, 0));
    }
    var rv := Revise(cw, st1, x, y);
    assert rv.1.objs == st1.objs by {
      assert Dom(rv.1, x) == Dom(st1, x);
    }
    assert Step(cw, st1, [(x, y)]) == (false, st1, []);
  }

  /** The stores once the across slot is pinned to `ab` and the lone slot to
      `gh`: the down slot still reads its own object, `{ae, cf}`. */
  lemma TrioPinned()
    ensures var cw, st0 := TrioCrossword(), TrioStore();
            var x, y, z := cw.vars[1], cw.vars[0], cw.vars[2];
            && Valid(cw, st0) && Indexable(cw, st0) && Fits(cw, x, "ab")
            && var st1 := Pin(cw, st0, x, "ab");
               && Fits(cw, z, "gh")
               && var st2 := Pin(cw, st1, z, "gh");
                  && Ready(cw, st2, [(y, x)]) && st2.ref[y] == 0
                  && Dom(st2, x) == {"ab"} && Dom(st2, y) == {"ae", "cf"}
  {
    var cw := TrioCrossword();
    TrioReady();
    assert cw.vars[1] in cw.vars && cw.vars[2] in cw.vars;
  }

  /** Revising the down slot against `{ab}` keeps `ae` and drops `cf`. */
  lemma TrioRevise(st: Store)
    requires var cw := TrioCrossword();
             Ready(cw, st, [(cw.vars[0], cw.vars[1])])
             && Dom(st, cw.vars[1]) == {"ab"} && Dom(st, cw.vars[0]) == {"ae", "cf"}
    ensures var cw := TrioCrossword();
            var r := Revise(cw, st, cw.vars[0], cw.vars[1]);
            r.0 && Dom(r.1, cw.vars[0]) == {"ae"}
  {
    var cw := TrioCrossword();
    var y, x := cw.vars[0], cw.vars[1];
    ReadyCanRevise(cw, st, y, x);
    assert Supported("ae", Dom(st, x), (0, 0)) by {
      assert "ab" in Dom(st, x) && LettersMatch("ae", "ab", (0, 0));
    }
    assert !Supported("cf", Dom(st, x), (0, 0));
  }

  /** AC-3 from the down slot's arc alone prunes `cf` and answers true: the
      down slot's only neighbour is the slot it was revised against. */
  lemma TrioPrune(st: Store)
    requires var cw := TrioCrossword();
             Ready(cw, st, [(cw.vars[0], cw.vars[1])])
             && Dom(st, cw.vars[1]) == {"ab"} && Dom(st, cw.vars[0]) == {"ae", "cf"}
    ensures var cw := TrioCrossword();
            var r := Ac3Loop(cw, st, [(cw.vars[0], cw.vars[1])]);
            r.0 && Dom(r.1, cw.vars[0]) == {"ae"}
  {
    var cw := TrioCrossword();
    var y, x := cw.vars[0], cw.vars[1];
    TrioRevise(st);
    TrioNeighbors();
    var st3 := Revise(cw, st, y, x).1;
    assert [(y, x)][1..] == [];
    assert Enqueue([], y, [x], {x}) == [];
    assert Step(cw, st, [(y, x)]) == (false, st3, []);
  }

  /** With the across slot pinned to `ab`, pinning the lone slot to `gh` runs
      AC-3 over every crossing, from the down slot's arc. It removes `cf` from
      the down slot's own object, since `cf` has no partner left in `{ab}`. */
  lemma TrioInner()
    ensures var cw, st0 := TrioCrossword(), TrioStore();
            var x, y, z := cw.vars[1], cw.vars[0], cw.vars[2];
            && Valid(cw, st0) && Indexable(cw, st0) && Fits(cw, x, "ab")
            && var st1 := Pin(cw, st0, x, "ab");
               && Fits(cw, z, "gh")
               && var st2 := Pin(cw, st1, z, "gh");
                  && Ready(cw, st2, Seed(cw)) && st2.ref[y] == 0
                  && var r := Ac3Loop(cw, st2, Seed(cw));
                     && r.0 && Dom(r.1, y) == {"ae"}
  {
    var cw, st0 := TrioCrossword(), TrioStore();
    TrioPinned();
    TrioSeed();
    TrioPrune(Pin(cw, Pin(cw, st0, cw.vars[1], "ab"), cw.vars[2], "gh"));
  }

  /** A solution that gives `v` another word than the one left in `v`'s
      domain is not within the domains. */
  lemma OutsideDomain(st: Store, v: Variable, sol: Assignment, w: Word)
    requires v in st.ref && st.ref[v] < |st.objs| && Dom(st, v) == {w} && v in sol && sol[v] != w
    ensures !Within(st, sol)
  {
  }

  /** The store after the lone slot's AC-3, with both pins still in place. */
  function TrioPruned(): (st: Store)
    ensures var y := TrioCrossword().vars[0];
            y in st.ref && st.ref[y] == 0 < |st.objs| && Dom(st, y) == {"ae"}
  {
    var cw, st0 := TrioCrossword(), TrioStore();
    TrioInner();
    var st1 := Pin(cw, st0, cw.vars[1], "ab");
    Ac3Loop(cw, Pin(cw, st1, cw.vars[2], "gh"), Seed(cw)).1
  }

  /** The store once `backtrack` has restored the lone slot's pin and then
      the across slot's. */
  function TrioRestored(): (st: Store)
    ensures st.ref == TrioStore().ref && st.objs == TrioPruned().objs
  {
    var cw, st0 := TrioCrossword(), TrioStore();
    TrioInner();
    var st1 := Pin(cw, st0, cw.vars[1], "ab");
    var st2 := Pin(cw, st1, cw.vars[2], "gh");
    ShrinksTransitive(st1, st2, TrioPruned());
    var back1 := Undo(cw, st1, cw.vars[2], TrioPruned());
    ShrinksTransitive(st0, st1, back1);
    Undo(cw, st0, cw.vars[1], back1)
  }

  /** The lone slot has no neighbour, and each crossing slot has the other. */
  lemma TrioUnlinked()
    ensures var cw := TrioCrossword();
            && !Linked(cw)
            && ArcsFrom(cw.vars[1], Neighbors(cw, cw.vars[1])) == [(cw.vars[1], cw.vars[0])]
            && ArcsFrom(cw.vars[2], Neighbors(cw, cw.vars[2])) == []
  {
    var cw := TrioCrossword();
    TrioNeighbors();
    assert cw.vars[2] in cw.vars;
  }

  /** The restore in `backtrack` (lines 286-287) moves domain objects back but
      does not undo pruning done in place. On the trio crossword the search
      pins the across slot to `ab`, whose AC-3 from its one arc leaves
      everything as it was (`TrioOuter`), then the lone slot to `gh`, whose
      AC-3 over every crossing prunes `cf` from the down slot's own object
      and answers true (`TrioInner`). Once both pins are undone, that object
      still lacks `cf`, so the solution `cd`/`cf`/`gh`, within the domains
      before the attempt, is no longer within them when the across slot
      tries `cd`. This replays the pins and restores only: in a whole run the
      search would complete `ab`/`ae` here and stop. */
  lemma UnlinkedPruningPersists()
    ensures var cw, st0 := TrioCrossword(), TrioStore();
            var x, y, z := cw.vars[1], cw.vars[0], cw.vars[2];
            var sol := map[x := "cd", y := "cf", z := "gh"];
            && !Linked(cw) && DistinctRefs(st0) && Reachable(cw, st0, map[], sol)
            && ArcsFrom(x, Neighbors(cw, x)) == [(x, y)] && ArcsFrom(z, Neighbors(cw, z)) == []
            && TrioRestored().ref == st0.ref && !Within(TrioRestored(), sol)
  {
    var cw, st0 := TrioCrossword(), TrioStore();
    var x, y, z := cw.vars[1], cw.vars[0], cw.vars[2];
    TrioReady();
    TrioSolution();
    TrioUnlinked();
    var sol := map[x := "cd", y := "cf", z := "gh"];
    assert sol[y] == "cf" != "ae" by {
      assert "cf"[0] != "ae"[0];
    }
    var back, r := TrioRestored(), TrioPruned();
    assert back.ref[y] == 0 == r.ref[y] && back.objs == r.objs;
    assert Dom(back, y) == Dom(r, y) == {"ae"};
    OutsideDomain(back, y, sol, "ae");
  }
}

=== FILE: tictactoe.dfy ===
/** Tic-tac-toe game logic: a 3x3 board of `X`, `O` and empty cells, whose turn
    it is, the legal moves, the effect of a move, and the end-of-game tests. */
module TicTacToe {
  import opened Wrappers

  datatype Mark = X | O

  /** A cell holds a mark or nothing (`EMPTY`, Python's `None`). */
  type Cell = Option<Mark>

  type Board = seq<seq<Cell>>

  /** A move `(row, column)`. */
  type Action = (int, int)

  const EMPTY: Cell := None

  predicate IsBoard(b: Board)
  {
    |b| == 3 && forall r :: 0 <= r < 3 ==> |b[r]| == 3
  }

  predicate OnBoard(a: Action)
  {
    0 <= a.0 < 3 && 0 <= a.1 < 3
  }

  /** Row-major position of a cell, 0 .. 8. */
  function Flat(a: Action): int
  {
    3 * a.0 + a.1
  }

  /** The cell at row-major position `p`. */
  function At(b: Board, p: int): Cell
    requires IsBoard(b) && 0 <= p < 9
  {
    b[p / 3][p % 3]
  }

  /** Row-major positions below `k` holding `c`. */
  ghost function CellsWith(b: Board, c: Cell, k: int): set<int>
    requires IsBoard(b) && 0 <= k <= 9
  {
    set p | 0 <= p < k && At(b, p) == c
  }

  /** How many cells of the board hold `c`. */
  ghost function Count(b: Board, c: Cell): nat
    requires IsBoard(b)
  {
    |CellsWith(b, c, 9)|
  }

  /** Number of empty cells: the measure on which the game search terminates. */
  ghost function Empties(b: Board): nat
    requires IsBoard(b)
  {
    Count(b, EMPTY)
  }

  lemma CellsWithStep(b: Board, c: Cell, k: int)
    requires IsBoard(b) && 0 < k <= 9
    ensures CellsWith(b, c, k) == CellsWith(b, c, k - 1) + (if At(b, k - 1) == c then {k - 1} else {})
    ensures k - 1 !in CellsWith(b, c, k - 1)
  {
  }

  function InitialState(): (b: Board)
    ensures IsBoard(b)
    ensures forall i, j :: 0 <= i < 3 && 0 <= j < 3 ==> b[i][j] == EMPTY
  {
    [[EMPTY, EMPTY, EMPTY],
     [EMPTY, EMPTY, EMPTY],
     [EMPTY, EMPTY, EMPTY]]
  }

  /** Numbers of `X` and `O` marks among the first `k` cells in row-major order. */
  function Tally(b: Board, k: int): (t: (nat, nat))
    requires IsBoard(b) && 0 <= k <= 9
    ensures t.0 == |CellsWith(b, Some(X), k)|
    ensures t.1 == |CellsWith(b, Some(O), k)|
  {
    if k == 0 then (0, 0)
    else
      var t := Tally(b, k - 1);
      CellsWithStep(b, Some(X), k);
      CellsWithStep(b, Some(O), k);
      if At(b, k - 1) == Some(X) then (t.0 + 1, t.1)
      else if At(b, k - 1) == Some(O) then (t.0, t.1 + 1)
      else t
  }

  /** The player to move: `X` starts, and `O` moves whenever `X` is ahead. */
  function Player(b: Board): (m: Mark)
    requires IsBoard(b)
    ensures m == O <==> Count(b, Some(X)) > Count(b, Some(O))
  {
    var t := Tally(b, 9);
    if t.0 > t.1 then O else X
  }

  /** Row-major position `k` is the cell `(k / 3, k % 3)`, and no other. */
  lemma FlatCell(k: int)
    requires 0 <= k < 9
    ensures OnBoard((k / 3, k % 3)) && Flat((k / 3, k % 3)) == k
    ensures forall a :: OnBoard(a) && Flat(a) == k ==> a == (k / 3, k % 3)
  {
  }

  /** The empty cells at row-major positions `k` and above, in row-major order. */
  function ActionsFrom(b: Board, k: int): (acts: seq<Action>)
    requires IsBoard(b) && 0 <= k <= 9
    ensures forall a :: a in acts <==> OnBoard(a) && k <= Flat(a) && b[a.0][a.1] == EMPTY
    ensures forall n, n' :: 0 <= n < n' < |acts| ==> Flat(acts[n]) < Flat(acts[n'])
    decreases 9 - k
  {
    if k == 9 then []
    else
      var rest := ActionsFrom(b, k + 1);
      FlatCell(k);
      if At(b, k) == EMPTY then [(k / 3, k % 3)] + rest else rest
  }

  /** All legal moves: exactly the empty cells, each once, in row-major order. */
  function Actions(b: Board): (acts: seq<Action>)
    requires IsBoard(b)
    ensures forall a :: a in acts <==> OnBoard(a) && b[a.0][a.1] == EMPTY
    ensures forall n, n' :: 0 <= n < n' < |acts| ==> Flat(acts[n]) < Flat(acts[n'])
  {
    ActionsFrom(b, 0)
  }

  /** The board after the player to move marks cell `a`; the input board is a
      value and stays as it was. The source does not check that the cell is empty. */
  function Result(b: Board, a: Action): (r: Board)
    requires IsBoard(b) && OnBoard(a)
    ensures IsBoard(r)
    ensures r[a.0][a.1] == Some(Player(b))
    ensures forall i, j :: 0 <= i < 3 && 0 <= j < 3 && (i, j) != a ==> r[i][j] == b[i][j]
  {
    b[a.0 := b[a.0][a.1 := Some(Player(b))]]
  }

  /** The eight lines, as row-major positions, in the order the source checks
      them: rows, columns, the diagonal, the inverse diagonal. */
  const Lines: seq<(int, int, int)> :=
    [(0, 1, 2), (3, 4, 5), (6, 7, 8),
     (0, 3, 6), (1, 4, 7), (2, 5, 8),
     (0, 4, 8), (2, 4, 6)]

  predicate Completes(b: Board, k: int, m: Mark)
    requires IsBoard(b) && 0 <= k < 8
  {
    At(b, Lines[k].0) == Some(m) && At(b, Lines[k].1) == Some(m) && At(b, Lines[k].2) == Some(m)
  }

  ghost predicate HasLine(b: Board, m: Mark)
    requires IsBoard(b)
  {
    exists k :: 0 <= k < 8 && Completes(b, k, m)
  }

  /** Some mark fills line `k`. */
  predicate LineFull(b: Board, k: int)
    requires IsBoard(b) && 0 <= k < 8
  {
    At(b, Lines[k].0) != EMPTY && At(b, Lines[k].0) == At(b, Lines[k].1) == At(b, Lines[k].2)
  }

  function CountIn(row: seq<Cell>, c: Cell): nat
  {
    multiset(row)[c]
  }

  /** A row of three holds `c` three times exactly when each of its cells does. */
  lemma CountInThree(row: seq<Cell>, c: Cell)
    requires |row| == 3
    ensures CountIn(row, c) == 3 <==> row[0] == c && row[1] == c && row[2] == c
  {
    assert row == [row[0]] + [row[1]] + [row[2]];
  }

  lemma AtCells(b: Board)
    requires IsBoard(b)
    ensures At(b, 0) == b[0][0] && At(b, 1) == b[0][1] && At(b, 2) == b[0][2]
    ensures At(b, 3) == b[1][0] && At(b, 4) == b[1][1] && At(b, 5) == b[1][2]
    ensures At(b, 6) == b[2][0] && At(b, 7) == b[2][1] && At(b, 8) == b[2][2]
  {
  }

  /** The cells of each line, spelled out. */
  lemma LineCells(b: Board)
    requires IsBoard(b)
    ensures forall k :: 0 <= k < 8 ==> LineFull(b, k) == (At(b, Lines[k].0) != EMPTY && At(b, Lines[k].0) == At(b, Lines[k].1) == At(b, Lines[k].2))
    ensures Lines[0] == (0, 1, 2) && Lines[1] == (3, 4, 5) && Lines[2] == (6, 7, 8)
    ensures Lines[3] == (0, 3, 6) && Lines[4] == (1, 4, 7) && Lines[5] == (2, 5, 8)
    ensures Lines[6] == (0, 4, 8) && Lines[7] == (2, 4, 6)
  {
  }

  /** Every cell is empty, `X` or `O`. */
  lemma CellCases(b: Board)
    requires IsBoard(b)
    ensures forall p :: 0 <= p < 9 ==> At(b, p) == EMPTY || At(b, p) == Some(X) || At(b, p) == Some(O)
  {
    forall p | 0 <= p < 9
      ensures At(b, p) == EMPTY || At(b, p) == Some(X) || At(b, p) == Some(O)
    {
      match At(b, p)
      case None =>
      case Some(m) => if m == X {} else {}
    }
  }

  /** The mark of the first full line in the source's checking order (rows,
      columns, diagonal, inverse diagonal), or none when no line is full. */
  function Winner(b: Board): (w: Option<Mark>)
    requires IsBoard(b)
    ensures w == None <==> forall k :: 0 <= k < 8 ==> !LineFull(b, k)
    ensures w.Some? ==> exists k :: 0 <= k < 8 && Completes(b, k, w.value) &&
                          forall k' :: 0 <= k' < k ==> !LineFull(b, k')
  {
    CellCases(b);
    AtCells(b);
    LineCells(b);
    CountInThree(b[0], Some(X)); CountInThree(b[0], Some(O));
    CountInThree(b[1], Some(X)); CountInThree(b[1], Some(O));
    CountInThree(b[2], Some(X)); CountInThree(b[2], Some(O));
    if CountIn(b[0], Some(X)) == 3 || CountIn(b[0], Some(O)) == 3 then
      assert Completes(b, 0, b[0][0].value) && LineFull(b, 0);
      b[0][0]
    else if CountIn(b[1], Some(X)) == 3 || CountIn(b[1], Some(O)) == 3 then
      assert Completes(b, 1, b[1][0].value) && LineFull(b, 1);
      b[1][0]
    else if CountIn(b[2], Some(X)) == 3 || CountIn(b[2], Some(O)) == 3 then
      assert Completes(b, 2, b[2][0].value) && LineFull(b, 2);
      b[2][0]
    else if b[0][0] != EMPTY && b[0][0] == b[1][0] == b[2][0] then
      assert Completes(b, 3, b[0][0].value) && LineFull(b, 3);
      b[0][0]
    else if b[0][1] != EMPTY && b[0][1] == b[1][1] == b[2][1] then
      assert Completes(b, 4, b[0][1].value) && LineFull(b, 4);
      b[0][1]
    else if b[0][2] != EMPTY && b[0][2] == b[1][2] == b[2][2] then
      assert Completes(b, 5, b[0][2].value) && LineFull(b, 5);
      b[0][2]
    else if b[0][0] != EMPTY && b[0][0] == b[1][1] == b[2][2] then
      assert Completes(b, 6, b[0][0].value) && LineFull(b, 6);
      b[0][0]
    else if b[0][2] != EMPTY && b[0][2] == b[1][1] == b[2][0] then
      assert Completes(b, 7, b[0][2].value) && LineFull(b, 7);
      b[0][2]
    else None
  }

  /** No cell is empty exactly when the count of empty cells is zero. */
  lemma NoEmpties(b: Board)
    requires IsBoard(b)
    ensures Empties(b) == 0 <==> forall i, j :: 0 <= i < 3 && 0 <= j < 3 ==> b[i][j] != EMPTY
  {
    if exists i, j :: 0 <= i < 3 && 0 <= j < 3 && b[i][j] == EMPTY {
      var i, j :| 0 <= i < 3 && 0 <= j < 3 && b[i][j] == EMPTY;
      FlatInverse((i, j));
      assert Flat((i, j)) in CellsWith(b, EMPTY, 9);
    } else {
      forall p | 0 <= p < 9
        ensures At(b, p) != EMPTY
      {
        FlatCell(p);
      }
      assert CellsWith(b, EMPTY, 9) == {};
    }
  }

  /** Whether the game is over: exactly when some player has a line or no cell
      is empty. */
  function Terminal(b: Board): (t: bool)
    requires IsBoard(b)
    ensures t <==> Winner(b).Some? || Empties(b) == 0
  {
    NoEmpties(b);
    if Winner(b) != None then true
    else if EMPTY in b[0] || EMPTY in b[1] || EMPTY in b[2] then false
    else true
  }

  /** The game is over exactly when some line is full or no cell is empty. */
  lemma TerminalSpec(b: Board)
    requires IsBoard(b)
    ensures Terminal(b) <==> (exists k :: 0 <= k < 8 && LineFull(b, k)) ||
                             forall i, j :: 0 <= i < 3 && 0 <= j < 3 ==> b[i][j] != EMPTY
  {
    NoEmpties(b);
  }

  /** 1 when `X` has won, -1 when `O` has, 0 otherwise: 0 exactly when no line
      is full, and otherwise the sign of a player who holds a line. */
  function Utility(b: Board): (u: int)
    requires IsBoard(b)
    ensures -1 <= u <= 1
    ensures u == 0 <==> forall k :: 0 <= k < 8 ==> !LineFull(b, k)
    ensures u == 1 ==> HasLine(b, X)
    ensures u == -1 ==> HasLine(b, O)
  {
    match Winner(b)
    case Some(X) => 1
    case Some(O) => -1
    case None => 0
  }

  /** The first player on the empty board is `X`, and all nine cells are free. */
  lemma InitialPlayerIsX()
    ensures Player(InitialState()) == X
    ensures Empties(InitialState()) == 9
  {
    var b := InitialState();
    assert CellsWith(b, Some(X), 9) == {};
    EmptyPrefix(b, 9);
  }

  lemma {:induction false} EmptyPrefix(b: Board, k: int)
    requires IsBoard(b) && 0 <= k <= 9
    requires forall i, j :: 0 <= i < 3 && 0 <= j < 3 ==> b[i][j] == EMPTY
    ensures |CellsWith(b, EMPTY, k)| == k
  {
    if k > 0 {
      CellsWithStep(b, EMPTY, k);
      EmptyPrefix(b, k - 1);
    }
  }

  lemma FlatInverse(a: Action)
    requires OnBoard(a)
    ensures 0 <= Flat(a) < 9 && Flat(a) / 3 == a.0 && Flat(a) % 3 == a.1
  {
  }

  /** A move changes exactly one cell: the moved-on cell gains the mover's mark. */
  lemma ResultCells(b: Board, a: Action, c: Cell)
    requires IsBoard(b) && OnBoard(a)
    ensures CellsWith(Result(b, a), c, 9) ==
            (CellsWith(b, c, 9) - {Flat(a)}) + (if c == Some(Player(b)) then {Flat(a)} else {})
  {
    var r := Result(b, a);
    FlatInverse(a);
    forall p | 0 <= p < 9
      ensures At(r, p) == if p == Flat(a) then Some(Player(b)) else At(b, p)
    {
      if p != Flat(a) {
        assert (p / 3, p % 3) != a;
      }
    }
  }

  /** Playing on an empty cell leaves one empty cell fewer. */
  lemma ResultEmpties(b: Board, a: Action)
    requires IsBoard(b) && OnBoard(a) && b[a.0][a.1] == EMPTY
    ensures Empties(Result(b, a)) == Empties(b) - 1
  {
    ResultCells(b, a, EMPTY);
    FlatInverse(a);
    assert Flat(a) in CellsWith(b, EMPTY, 9);
  }

  /** Turn order: on a board where `X` is level with `O` or one ahead, a move on
      an empty cell passes the turn to the other player and keeps that balance. */
  lemma ResultAlternates(b: Board, a: Action)
    requires IsBoard(b) && OnBoard(a) && b[a.0][a.1] == EMPTY
    requires Count(b, Some(X)) == Count(b, Some(O)) || Count(b, Some(X)) == Count(b, Some(O)) + 1
    ensures Player(Result(b, a)) != Player(b)
    ensures var r := Result(b, a);
            Count(r, Some(X)) == Count(r, Some(O)) || Count(r, Some(X)) == Count(r, Some(O)) + 1
  {
    FlatInverse(a);
    ResultCells(b, a, Some(X));
    ResultCells(b, a, Some(O));
    assert Flat(a) !in CellsWith(b, Some(X), 9);
    assert Flat(a) !in CellsWith(b, Some(O), 9);
  }
}

=== FILE: words.dfy ===
/** Words are strings, and strings are ordered as Python orders them: by code
    point, position by position, a proper prefix before its extensions. */
module Words {

  type Word = string

  /** Python's `a < b` on strings. */
  predicate WordLess(a: Word, b: Word)
  {
    if |a| == 0 then |b| > 0
    else if |b| == 0 then false
    else if a[0] != b[0] then a[0] < b[0]
    else WordLess(a[1..], b[1..])
  }

  lemma {:induction false} WordLessIrreflexive(a: Word)
    ensures !WordLess(a, a)
  {
    if |a| > 0 {
      WordLessIrreflexive(a[1..]);
    }
  }

  lemma {:induction false} WordLessAsymmetric(a: Word, b: Word)
    ensures !(WordLess(a, b) && WordLess(b, a))
  {
    if |a| > 0 && |b| > 0 && a[0] == b[0] {
      WordLessAsymmetric(a[1..], b[1..]);
    }
  }

  lemma {:induction false} WordLessTotal(a: Word, b: Word)
    ensures a == b || WordLess(a, b) || WordLess(b, a)
  {
    if |a| > 0 && |b| > 0 && a[0] == b[0] {
      WordLessTotal(a[1..], b[1..]);
      if a[1..] == b[1..] {
        assert a == [a[0]] + a[1..] && b == [b[0]] + b[1..];
      }
    }
  }

  lemma {:induction false} WordLessTransitive(a: Word, b: Word, c: Word)
    requires WordLess(a, b) && WordLess(b, c)
    ensures WordLess(a, c)
  {
    if |a| > 0 && |b| > 0 && |c| > 0 && a[0] == b[0] && b[0] == c[0] {
      WordLessTransitive(a[1..], b[1..], c[1..]);
    }
  }
}

=== FILE: wrappers.dfy ===
/** The optional value shared by both models: Python's `None` versus a present value. */
module Wrappers {

  datatype Option<+T> = None | Some(value: T)

}
